=== FILE: README.md ===
# ThreeService bookkeeping, in Dafny

A model of the state-keeping core of `ThreeService` (`three.service.ts`), the
Angular service that wraps a three.js scene. The model covers what the service
itself decides. It does not cover what three.js draws.

- **Object registry.** `addObject`, `removeObject` and `getObject` keep a JS
  `Map` from id to a scene-object entry. Removing an object releases its
  geometry and material or materials, and only for a mesh.
- **Camera controls.** `setupControls` releases the current control, then
  builds one of five kinds (orbit, first-person, pointer-lock, trackball,
  fly) with its tuning constants. The frame tick updates the control in a
  form that depends on its kind.
- **Frame tick.** `animate` requests the next frame first, reads the clock,
  updates the control, then every mixer, then every per-object callback.
  After the updates it renders, through the composer when there is one, and
  then updates stats.
- **Side registries.** These are the mixer list (`createAnimationMixer`,
  `playGLTFAnimation`), the key-state map behind `isKeyPressed`, and the
  audio-source map shared by `playAudio` and `playPositionalAudio`. A
  request for a registered id reuses the registered source.

The service is an immutable record (`State.Service`). Every operation is a
pure function from one record to the next. Alongside the new record, an
operation returns a **trace**: the sequence of library calls it makes, as
abstract `Base.Event`s (scene add/remove, disposals, control construction,
renders, and so on). Library objects are opaque handles. Fresh handles are
drawn from a counter, so "a new object" means a handle no earlier object has.

The model turns three kinds of outside input into parameters:

- **Asynchronous loads.** The outcome of a glTF or audio load is a
  `LoadOutcome` parameter, and the promise's settlement is part of the
  result.
- **The clock.** The tick's delta is a parameter.
- **Dispose methods.** Whether a control class has a `dispose` method is a
  `ControlLibrary` parameter.

The JS `Map` is `JsMap.OrderedMap`: insertion-ordered keys plus entries.
`Set` on an existing key keeps the key's position. `Delete` removes the key
from the order. The tick therefore visits objects in the order the real map
would.

Behaviours of the code worth noting:

- `setupControls` before `initRenderer` is not a no-op. It records the new
  control type and releases the old control, and only then fails on the
  missing renderer.
- `animate` without a composer or renderer has already scheduled the next
  frame and run every update before it fails.
- `playGLTFAnimation` adds the model to the scene and registers its mixer
  before it checks for clips. A model without clips is rejected but stays in
  the scene.
- Re-adding an id overwrites the map entry. It does not remove the previous
  object from the scene.

## Model

| member | source | states |
|---|---|---|
| JsMap.Set | three.service.ts:398 | After `set`, the key maps to the new value and every other key keeps its value. Overwriting a key keeps the iteration order; a new key goes last. Distinct keys are preserved. |
| JsMap.Delete | three.service.ts:408 | After `delete`, the key is absent and the others keep their values. Deleting an absent key changes nothing. A present key is cut out of the iteration order at its position, and the remaining keys keep their relative order. |
| JsMap.Without | three.service.ts:408 | Removing a key from the iteration order keeps every other key and keeps the keys distinct. A key present once is cut out at its position, and the rest stays in order. |
| State.Init | three.service.ts:59-125 | The constructor leaves control type `'orbit'`, no control, empty object, mixer, key-state and audio registries, and no renderer or composer. The service invariant holds. |
| State.SetupPostProcessing | three.service.ts:210-228 | A composer exists exactly when there is a renderer. Its passes are render, FXAA, then gamma correction, and nothing else changes. |
| State.InitRenderer | three.service.ts:134-162 | After `initRenderer`, the renderer exists and the composer holds the three passes in order. No registry or control changes. |
| Registry.GetObject | three.service.ts:427-429 | `getObject` returns `undefined` exactly for an id with no entry, and otherwise the object registered under it. |
| Registry.AddObject | three.service.ts:396-399 | The entry under `id` holds the new object and its per-frame callback, and `getObject(id)` returns the object. Entries under every other id, callbacks included, are unchanged. The object is added to the scene with exactly one scene call, and nothing else in the service changes. |
| Registry.RemoveObject | three.service.ts:404-422 | An unknown id is a no-op with no library calls. A registered id is unregistered and its object leaves the scene. Then its geometry and materials are released. Entries under every other id, callbacks included, are unchanged. |
| Registry.MaterialDisposals | three.service.ts:415-416 | An array material gets one dispose call per array slot, in array order. A material that fills two slots is disposed twice, as `forEach` does. |
| Registry.ReleaseEventsExact | three.service.ts:411-420 | Removal releases a geometry exactly when it is the mesh's geometry, and a material exactly when it is one of the mesh's materials. It makes one call for the geometry and one per material slot; a non-mesh releases nothing. |
| Registry.RemoveTwiceReleasesOnce | three.service.ts:404-422 | A second `removeObject` of the same id makes no library call and changes nothing, so a second removal of the same id releases nothing. |
| Registry.SharedObjectReleasedPerId | three.service.ts:404-422 | Removal is per id: one object registered under two ids is taken out of the scene and released once by each of the two removals. |
| Registry.ReAddKeepsPreviousInScene | three.service.ts:396-399 | Re-adding an id replaces the registry entry, but the previous object stays in the scene. Removing the id afterwards takes out only the new one. |
| Registry.AddThenRemoveRestoresRegistry | three.service.ts:396-422 | Adding a fresh id and removing it again restores the registry, including the iteration order of the other ids. |
| Controls.SetupControls | three.service.ts:167-205 | The control type is always recorded. The old control is released only if it has `dispose`, and before the new control is built. Without a renderer nothing is built and the call fails. Otherwise exactly one new control of the requested kind is built, with that kind's tuning constants. The call makes no library call other than the release and that one construction. |
| Controls.ControlUpdateEvents | three.service.ts:320-326 | The tick's nested dispatch on the control type is equivalent to a per-kind table. First-person and fly get the delta, orbit and trackball get no argument, pointer-lock gets no update. No control means no update. |
| Controls.SwitchReleasesThenBuilds | three.service.ts:167-205 | Switching away from an installed control makes exactly two kinds of call. First the old control is released, if it has `dispose`. Then a distinct new control is built. The next tick updates the new control in the new kind's form. |
| Controls.SameKindTwiceIsFresh | three.service.ts:167-205 | Requesting the same kind twice builds a second, distinct control rather than keeping the first. |
| Animation.CreateAnimationMixer | three.service.ts:660-664 | The new mixer is over the given root and is appended after every existing mixer. It is distinct from all of them. |
| Animation.PlayGltfAnimation | three.service.ts:669-693 | A failed load rejects and changes nothing. A loaded model is added to the scene, which otherwise stays as it was, and gets a new mixer, even when it has no clips. It rejects with 'No animations found in model' exactly when there are no clips. It plays exactly when the index names a clip, and then plays that clip on the new mixer. A loaded model's calls are exactly: the load, the scene insertion, the mixer construction, and the clip play only when the promise resolves. |
| Input.OnKey | three.service.ts:710-716 | `keydown` records the code as pressed and `keyup` as released. No other code and no other part of the service changes. |
| Input.IsKeyPressed | three.service.ts:722-724 | A code with no recorded event reads as not pressed. A recorded code reads as pressed exactly when its recorded state is `true`. |
| Input.PressedIffLastWasDown | three.service.ts:710-724 | After any event sequence, `isKeyPressed(code)` holds exactly when the latest event for that code was a `keydown`. A code with no event keeps its earlier reading. |
| Input.PressedFromStart | three.service.ts:710-724 | From the constructor's empty key map, a code reads as pressed exactly when its latest event was a `keydown`. A code never seen reads as not pressed. |
| Audio.PlayAudio | three.service.ts:745-786 | A registered id resolves with its source, loads nothing and replays only when autoplay is on. A new id first builds a non-positional source under a handle no registered source uses, then loads it. A failed load rejects after exactly those two calls. On success the source is registered, and the calls are exactly: create, load, set buffer, volume (default 1), loop (default false), then play when autoplay (default true) is on. |
| Audio.PlayPositionalAudio | three.service.ts:790-843 | A registered id is moved to the new position, resolves with its source and loads nothing. A new id first builds a positional source under a handle no registered source uses and places it, then loads it. A failed load rejects after those three calls and leaves the registry and the scene unchanged. A new id is registered and added to the scene only when the load succeeds. The calls are then exactly: create, position, load, buffer, volume, loop, reference distance (default 1), max distance (default 100), scene insertion, then play on autoplay. |
| Audio.RepeatRequestReusesSource | three.service.ts:750-758 | Once an id is registered, a later request of either kind, whatever its path or options, loads nothing. It leaves the map unchanged and resolves with the same source. |
| Audio.FailedLoadIsRetried | three.service.ts:763-783 | A failed load leaves the id unregistered, so the next request for it loads again. |
| FrameLoop.MixerEvents | three.service.ts:329 | The tick updates each registered mixer once, in registration order, with the tick's delta. |
| FrameLoop.ObjectEvents | three.service.ts:332-336 | Each callback the tick calls is the one registered for its id, with the tick's delta. Every registered callback is called, and no id is called twice. |
| FrameLoop.RenderEvents | three.service.ts:346-355 | Rendering goes through the composer when there is one, and otherwise through the renderer. There is at most one render call and at most one stats update, and stats update only after a render. |
| FrameLoop.Animate | three.service.ts:314-356 | The next frame is requested first, then the clock is read. The tick completes exactly when a composer or renderer exists. It uses the composer exactly when there is one, and updates stats only on a completed tick. |
| FrameLoop.TickPhasesInOrder | three.service.ts:314-356 | Every tick's calls come in this phase order: frame request, clock, control update, mixer updates, object callbacks, render, stats. A tick makes no call outside these phases. |
| FrameLoop.TickUpdatesMixersInOrder | three.service.ts:329 | The mixers a tick updates are exactly the registered mixers, in registration order, all with the tick's delta. |
| FrameLoop.TickAdvancesEveryMixer | three.service.ts:329 | Every tick advances every registered mixer with the tick's delta, whatever else the tick does. |
| FrameLoop.TickCallsEachCallbackOnce | three.service.ts:332-336 | A tick calls an object callback exactly when it is registered for an id, calls it with the tick's delta, and calls it once per id. |
| FrameLoop.TickUpdatesControlByKind | three.service.ts:320-326 | A tick updates a control exactly when one is installed, with the installed control's handle and in the form its kind requires. |
| Runtime.Apply | three.service.ts:50-93 | Every operation keeps the service invariant. The entries are keyed by their own ids, and the installed control matches the recorded type. Every control, mixer and audio source the service holds is older than the next fresh one. Each step builds its library objects under new handles, distinct from each other and from every earlier object. A tick changes no state. |
| Runtime.Run | three.service.ts:50-93 | Any sequence of operations keeps the service invariant. Every control, mixer and audio source built during the run gets a handle no other object built in the run has, and none an object built before the run has. |
| Runtime.ReachableTickMatchesInstalledControl | three.service.ts:320-326 | In every state reachable from the constructor, the tick's dispatch on the recorded control type updates the installed control in the form of its own kind. |
| Runtime.AddedCallbackRunsEveryTick | three.service.ts:396-399 | Until the id is removed or registered again, every later tick calls the callback `addObject` stored for it, with the tick's delta, whatever other operations come between. Without a callback, such a tick calls nothing for the id. |
| Runtime.CubeAddRemove | three.service.ts:396-422 | Registering a cube mesh and removing it leaves the registry empty and takes the cube out of the scene. It releases exactly the cube's geometry and material, in that order. |
| Runtime.LoadedModelIsAnimated | three.service.ts:660-664 | Once `playGLTFAnimation` has loaded a model, every later tick advances the model's new mixer and every earlier mixer, whatever operations come between and whether or not a clip was played. |
| Runtime.ApplyKeeps | three.service.ts:662 | No operation takes a mixer away or reorders the mixers: the mixers before a step are a prefix of the mixers after it. A composer, once built, stays. An object entry changes only through `addObject` or `removeObject` of its own id. |
| Runtime.RunKeeps | three.service.ts:662 | Over any sequence of operations, the mixers at the start are a prefix of the mixers at the end, and a composer present at the start is present at the end. |
| Runtime.RunKeepsEntry | three.service.ts:398-408 | Over any sequence of operations with no `addObject` or `removeObject` of an id, that id's entry, callback included, stays as it was. |
| Runtime.RendererTicksThroughComposer | three.service.ts:346-350 | Once `initRenderer` has run, every later tick completes and renders through the composer, never directly through the renderer, whatever operations come between. |
| Runtime.OrbitThenFly | three.service.ts:167-205 | Requesting orbit then fly controls releases the orbit control before building a distinct fly control. |
| Runtime.ControlsBeforeRenderer | three.service.ts:167-180 | Before `initRenderer`, `setupControls` records the type but installs nothing. A tick then requests the next frame and reads the clock, updates nothing, and fails to render. |

## Left out

- Floating-point behaviour is not modelled: camera aspect, FXAA resolution, `onWindowResize`, mouse normalisation and the first-person `handleResize`. Reals are exact; tuning constants are compared as literals.
- The renderer's own settings (size, pixel ratio, shadow map, tone mapping) and the camera placement in `initRenderer` are not modelled. They are library configuration with no bookkeeping.
- The pass internals of the composer are not modelled. The composer is its ordered list of pass kinds.
- Attaching the audio listener to the camera is not modelled. It is a single library call that no registry observes.
- `createBasicScene` is not modelled. It registers `ground` and `cube` through the same map write `addObject` uses, plus lights and fog.
- The `create*` mesh factories, `loadGLTF`, `loadFBX`, `loadTexture`, `loadHDRI` and `createText3D` are not modelled. They build library objects and add nothing to the registries.
- `raycast` is not modelled. It is a library query over the mouse position.
- `startRenderLoop`, `NgZone` and `requestAnimationFrame` scheduling are not modelled. A tick is one call of `animate`, and requesting the next frame is an event in its trace.
- Interleaving of in-flight loads is not modelled. Each load settles inside its own call, so two overlapping requests for one new id are not modelled.
- The `stats` panel is a public field set from outside. It is a flag in the service record.
- `setupControls`' default argument `'orbit'` and `playGLTFAnimation`'s default index `0` are not modelled. Callers pass the kind and index explicitly.
- An options argument of `null` to the audio calls is not modelled. It would make the source's field reads throw; every field is optional here.
- Animation.PlayGltfAnimation: an index that names no clip is reported as `ClipUndefined`. Handing `undefined` to the mixer is a library-level outcome the model does not follow.
- FrameLoop.TickCallsEachCallbackOnce: states which callbacks run, with which delta, and that each runs once. It does not state their relative order. `ObjectEvents` walks the map's keys in iteration order, but no lemma restates that order.
- Object callbacks, mixer and control updates and the render calls are modelled as library calls that return normally and never call back into the service. In the source, a callback that throws ends the tick early, after the next frame is already requested. A callback that calls `addObject` or `removeObject` changes which entries `Map.forEach` visits. The claims that a tick changes no state and that every registered callback is called rest on this.
- The service's fields are public, but in the model only the service's own operations write them.
- Positional audio sources that the service builds and objects that callers register are separate kinds of scene node (`AudioNode` and `ObjectNode`). Passing the source that `playPositionalAudio` resolves with to `addObject` is therefore not modelled. In the source, a later `removeObject` of that id would take the source out of the scene. In the model, the `AudioNode` stays.
- State.InitRenderer: the step records no library calls. Building the renderer, the composer and its three passes shows up only in the new record (`hasRenderer`, `composer`), not in the trace.
- Runtime.Apply: the keyboard events, the audio calls and the animation calls are treated as service operations. The keyboard and mouse listeners' registration in the constructor (`setupEvents`) is not modelled.
- The example components that use the service are not part of this model.

=== FILE: animation.dfy ===
/**
 The animation-mixer list of `ThreeService`: `createAnimationMixer` and the
 registration and rejection paths of `playGLTFAnimation`. The frame tick
 advances every mixer in this list.
 */
module Animation {
  import opened Base
  import opened State

  /** A loaded glTF asset: its scene root and its animation clips. */
  datatype Gltf = Gltf(root: Handle, clips: seq<Handle>)

  /** How the promise `playGLTFAnimation` returns settles. */
  datatype AnimationResult =
    // resolved with the action playing `clip` on `mixer`
    | Playing(mixer: Handle, clip: Handle)
    // rejected with 'No animations found in model'
    | NoAnimations
    // rejected with the loader's error
    | LoadRejected
    // the index names no clip, so `undefined` is handed to the mixer;
    // what three.js does with it is not part of this model
    | ClipUndefined

  datatype MixerStep = MixerStep(state: Service, trace: seq<Event>, mixer: Mixer)

  datatype AnimationStep = AnimationStep(state: Service, trace: seq<Event>, result: AnimationResult)

  /** The mixer handles, in registration order. */
  function MixerHandles(ms: seq<Mixer>): (r: seq<Handle>)
    ensures |r| == |ms|
    ensures forall i | 0 <= i < |ms| :: r[i] == ms[i].handle
  {
    if |ms| == 0 then [] else [ms[0].handle] + MixerHandles(ms[1..])
  }

  /** `createAnimationMixer`: a new mixer over `root`, appended to the list. */
  function CreateAnimationMixer(s: Service, root: Handle): (r: MixerStep)
    requires Inv(s)
    ensures Inv(r.state)
    ensures r.state.mixers == s.mixers + [r.mixer]
    ensures r.mixer.root == root
    // the mixer is a new object, distinct from every registered one
    ensures r.mixer.handle !in MixerHandles(s.mixers)
    ensures r.trace == [MixerCreate(r.mixer.handle, root)]
    ensures r.state.(mixers := s.mixers, nextHandle := s.nextHandle) == s
  {
    var m := Mixer(s.nextHandle, root);
    MixerStep(s.(mixers := s.mixers + [m], nextHandle := s.nextHandle + 1), [MixerCreate(m.handle, root)], m)
  }

  /** `playGLTFAnimation(path, index)` with the load's outcome given. A
      loaded model is added to the scene and gets a registered mixer before
      its clips are looked at, so a model without clips is rejected but
      stays in the scene with its mixer. */
  function PlayGltfAnimation(s: Service, path: string, outcome: LoadOutcome<Gltf>, index: int): (r: AnimationStep)
    requires Inv(s)
    ensures Inv(r.state)
    ensures |r.trace| >= 1 && r.trace[0] == GltfLoad(path)
    ensures r.result == LoadRejected <==> outcome.LoadFailed?
    ensures outcome.LoadFailed? ==> r.state == s && r.trace == [GltfLoad(path)]
    ensures outcome.Loaded? ==>
      var g := outcome.resource;
      // the model is added to the scene and nothing else in it changes
      && r.state.scene == s.scene + {ObjectNode(g.root)}
      && |r.state.mixers| == |s.mixers| + 1
      && r.state.mixers[..|s.mixers|] == s.mixers
      && r.state.mixers[|s.mixers|].root == g.root
      && (r.result == NoAnimations <==> |g.clips| == 0)
      && (r.result.Playing? <==> 0 <= index < |g.clips|)
      && (r.result.Playing? ==>
            && r.result.clip == g.clips[index]
            && r.result.mixer == r.state.mixers[|s.mixers|].handle
            && r.trace[|r.trace| - 1] == ClipActionPlay(r.result.mixer, r.result.clip))
    // the calls of a loaded model: show it, build its mixer, and play a clip
    // only when the promise resolves
    ensures outcome.Loaded? ==>
      var g := outcome.resource;
      var h := r.state.mixers[|s.mixers|].handle;
      r.trace == [GltfLoad(path), SceneAdd(ObjectNode(g.root)), MixerCreate(h, g.root)]
                 + (if r.result.Playing? then [ClipActionPlay(h, r.result.clip)] else [])
    ensures r.state.(scene := s.scene, mixers := s.mixers, nextHandle := s.nextHandle) == s
  {
    match outcome
    case LoadFailed => AnimationStep(s, [GltfLoad(path)], LoadRejected)
    case Loaded(g) =>
      var shown := s.(scene := s.scene + {ObjectNode(g.root)});
      var created := CreateAnimationMixer(shown, g.root);
      var pre := [GltfLoad(path), SceneAdd(ObjectNode(g.root))] + created.trace;
      if |g.clips| > 0 then
        if 0 <= index < |g.clips| then
          var clip := g.clips[index];
          AnimationStep(created.state, pre + [ClipActionPlay(created.mixer.handle, clip)],
                        Playing(created.mixer.handle, clip))
        else
          AnimationStep(created.state, pre, ClipUndefined)
      else
        AnimationStep(created.state, pre, NoAnimations)
  }
}

=== FILE: audio.dfy ===
/**
 The audio-source map of `ThreeService`: `playAudio` and
 `playPositionalAudio`. Both share one map keyed by id. A request for a
 registered id reuses the registered source instead of loading again; a
 new id is registered only once its buffer has loaded.
 */
module Audio {
  import opened Base
  import opened State

  /** The options object; an absent field takes its default. */
  datatype AudioOptions = AudioOptions(
    volume: Option<real>,
    loop: Option<bool>,
    autoplay: Option<bool>,
    refDistance: Option<real>,
    maxDistance: Option<real>)

  /** How the returned promise settles. */
  datatype AudioResult = Resolved(audio: Handle) | Rejected

  datatype AudioStep = AudioStep(state: Service, trace: seq<Event>, result: AudioResult)

  function Or<T>(o: Option<T>, default: T): T {
    match o
    case Some(v) => v
    case None => default
  }

  function Volume(o: AudioOptions): real { Or(o.volume, 1.0) }
  function Loop(o: AudioOptions): bool { Or(o.loop, false) }
  function Autoplay(o: AudioOptions): bool { Or(o.autoplay, true) }
  function RefDistance(o: AudioOptions): real { Or(o.refDistance, 1.0) }
  function MaxDistance(o: AudioOptions): real { Or(o.maxDistance, 100.0) }

  function PlayIf(autoplay: bool, audio: Handle): seq<Event> {
    if autoplay then [AudioPlay(audio)] else []
  }

  /** No registered source uses `audio`. */
  ghost predicate Unused(s: Service, audio: Handle) {
    forall id | id in s.audioSources :: s.audioSources[id].audio != audio
  }

  /** `playAudio(id, path, options)` with the load's outcome given. */
  function PlayAudio(s: Service, id: string, path: string, opts: AudioOptions, outcome: LoadOutcome<Handle>): (r: AudioStep)
    requires Inv(s)
    ensures Inv(r.state)
    // a registered id: replayed when autoplay is set, nothing loaded or added
    ensures id in s.audioSources ==>
      var a := s.audioSources[id].audio;
      && r.state == s
      && r.result == Resolved(a)
      && r.trace == (if Autoplay(opts) then [AudioPlay(a)] else [])
    // a new id: a new source is created and its buffer loaded
    ensures id !in s.audioSources ==>
      && |r.trace| >= 2
      // the `Audio` is built, under a handle no source uses, before the load starts
      && r.trace[0].AudioCreate? && !r.trace[0].positional && Unused(s, r.trace[0].audio)
      && r.trace[1] == AudioLoad(path)
      && (r.result.Resolved? <==> outcome.Loaded?)
      && (outcome.LoadFailed? ==> r.state.audioSources == s.audioSources && |r.trace| == 2)
    // registered only inside the success callback, with a source no other id uses,
    // configured with the options or their defaults and played on autoplay
    ensures id !in s.audioSources && outcome.Loaded? ==>
      var a := r.result.audio;
      && Unused(s, a)
      && r.state.audioSources == s.audioSources[id := AudioSource(id, a, false)]
      && r.trace == [AudioCreate(a, false), AudioLoad(path), AudioSetBuffer(a, outcome.resource),
                     AudioSetVolume(a, Volume(opts)), AudioSetLoop(a, Loop(opts))]
                    + (if Autoplay(opts) then [AudioPlay(a)] else [])
    ensures r.state.(audioSources := s.audioSources, nextHandle := s.nextHandle) == s
  {
    if id in s.audioSources then
      var a := s.audioSources[id].audio;
      AudioStep(s, PlayIf(Autoplay(opts), a), Resolved(a))
    else
      var a := s.nextHandle;
      var created := s.(nextHandle := s.nextHandle + 1);
      var request := [AudioCreate(a, false), AudioLoad(path)];
      match outcome
      case LoadFailed => AudioStep(created, request, Rejected)
      case Loaded(buffer) =>
        var configure := [AudioSetBuffer(a, buffer), AudioSetVolume(a, Volume(opts)), AudioSetLoop(a, Loop(opts))];
        AudioStep(created.(audioSources := s.audioSources[id := AudioSource(id, a, false)]),
                  request + configure + PlayIf(Autoplay(opts), a), Resolved(a))
  }

  /** `playPositionalAudio(id, path, position, options)` with the load's
      outcome given. */
  function PlayPositionalAudio(s: Service, id: string, path: string, position: Vec3,
                               opts: AudioOptions, outcome: LoadOutcome<Handle>): (r: AudioStep)
    requires Inv(s)
    ensures Inv(r.state)
    // a registered id: moved, replayed when autoplay is set, nothing loaded or added
    ensures id in s.audioSources ==>
      var a := s.audioSources[id].audio;
      && r.state == s
      && r.result == Resolved(a)
      && r.trace == [AudioSetPosition(a, position)] + (if Autoplay(opts) then [AudioPlay(a)] else [])
    // a new id: a new positioned source is created and its buffer loaded
    ensures id !in s.audioSources ==>
      && |r.trace| >= 3
      // the `PositionalAudio` is built and positioned before the load starts
      && r.trace[0].AudioCreate? && r.trace[0].positional && Unused(s, r.trace[0].audio)
      && r.trace[1] == AudioSetPosition(r.trace[0].audio, position)
      && r.trace[2] == AudioLoad(path)
      && (r.result.Resolved? <==> outcome.Loaded?)
      && (outcome.LoadFailed? ==>
            && r.state.audioSources == s.audioSources
            && r.state.scene == s.scene
            && |r.trace| == 3)
    // registered and put in the scene only inside the success callback,
    // configured with the options or their defaults and played on autoplay
    ensures id !in s.audioSources && outcome.Loaded? ==>
      var a := r.result.audio;
      && Unused(s, a)
      && r.state.audioSources == s.audioSources[id := AudioSource(id, a, true)]
      && r.state.scene == s.scene + {AudioNode(a)}
      && r.trace == [AudioCreate(a, true), AudioSetPosition(a, position), AudioLoad(path),
                     AudioSetBuffer(a, outcome.resource), AudioSetVolume(a, Volume(opts)),
                     AudioSetLoop(a, Loop(opts)), AudioSetRefDistance(a, RefDistance(opts)),
                     AudioSetMaxDistance(a, MaxDistance(opts)), SceneAdd(AudioNode(a))]
                    + (if Autoplay(opts) then [AudioPlay(a)] else [])
    ensures r.state.(audioSources := s.audioSources, scene := s.scene, nextHandle := s.nextHandle) == s
  {
    if id in s.audioSources then
      var a := s.audioSources[id].audio;
      AudioStep(s, [AudioSetPosition(a, position)] + PlayIf(Autoplay(opts), a), Resolved(a))
    else
      var a := s.nextHandle;
      var created := s.(nextHandle := s.nextHandle + 1);
      var request := [AudioCreate(a, true), AudioSetPosition(a, position), AudioLoad(path)];
      match outcome
      case LoadFailed => AudioStep(created, request, Rejected)
      case Loaded(buffer) =>
        var configure := [AudioSetBuffer(a, buffer), AudioSetVolume(a, Volume(opts)), AudioSetLoop(a, Loop(opts)),
                          AudioSetRefDistance(a, RefDistance(opts)), AudioSetMaxDistance(a, MaxDistance(opts)),
                          SceneAdd(AudioNode(a))];
        AudioStep(created.(audioSources := s.audioSources[id := AudioSource(id, a, true)],
                           scene := s.scene + {AudioNode(a)}),
                  request + configure + PlayIf(Autoplay(opts), a), Resolved(a))
  }

  /** A request of either kind for an id registered by an earlier
      successful request loads nothing, keeps the map as it is, and
      resolves with the registered source, whatever path or options it
      carries. */
  lemma {:induction false} RepeatRequestReusesSource(
    s: Service, id: string, path: string, opts: AudioOptions, buffer: Handle,
    path2: string, position2: Vec3, opts2: AudioOptions, outcome2: LoadOutcome<Handle>)
    requires Inv(s)
    ensures
      var first := PlayAudio(s, id, path, opts, Loaded(buffer));
      var again := PlayAudio(first.state, id, path2, opts2, outcome2);
      var moved := PlayPositionalAudio(first.state, id, path2, position2, opts2, outcome2);
      && first.result.Resolved?
      && again.state.audioSources == first.state.audioSources
      && moved.state.audioSources == first.state.audioSources
      && |again.state.audioSources| == |first.state.audioSources|
      && again.result == first.result && moved.result == first.result
      && AudioLoad(path2) !in again.trace && AudioLoad(path2) !in moved.trace
  {
    var first := PlayAudio(s, id, path, opts, Loaded(buffer));
    assert id in first.state.audioSources;
  }

  /** A failed load registers nothing, so the next request for the same id
      loads again. */
  lemma {:induction false} FailedLoadIsRetried(s: Service, id: string, path: string, opts: AudioOptions,
                                               path2: string, opts2: AudioOptions, outcome2: LoadOutcome<Handle>)
    requires Inv(s)
    requires id !in s.audioSources
    ensures
      var first := PlayAudio(s, id, path, opts, LoadFailed);
      var again := PlayAudio(first.state, id, path2, opts2, outcome2);
      && first.result == Rejected
      && id !in first.state.audioSources
      && AudioLoad(path2) in again.trace
  {
  }
}

=== FILE: base.dfy ===
/**
 Shared vocabulary of the scene-runtime model: opaque handles for the
 library objects the service talks to, and the events that record each call
 the service makes on them.

 Every three.js object (mesh, geometry, material, control, mixer, audio,
 composer) is an opaque handle; the model never looks inside one. What the
 service does to those objects is recorded, in order, as a trace of events.
 */
module Base {

  /** Identity of a library object. */
  type Handle = nat

  datatype Option<+T> = None | Some(value: T)

  /** The five camera-control kinds the service can install. */
  datatype ControlKind = Orbit | FirstPerson | PointerLock | Trackball | Fly

  /** The argument form of a control's per-frame `update` call. */
  datatype UpdateArg = NoArg | WithDelta(delta: real)

  /** A three.js `Vector3`, copied but never computed on. */
  datatype Vec3 = Vec3(x: real, y: real, z: real)

  /** A node of the scene graph: a caller-supplied or loaded `Object3D`, or
      a positional audio source the service created itself. */
  datatype SceneNode = ObjectNode(obj: Handle) | AudioNode(audio: Handle)

  /** One call the service makes into the library or the host. */
  datatype Event =
    // scene graph
    | SceneAdd(node: SceneNode)
    | SceneRemove(node: SceneNode)
    // resource release
    | GeometryDispose(geometry: Handle)
    | MaterialDispose(material: Handle)
    // camera controls
    | ControlDispose(control: Handle)
    | ControlConstruct(kind: ControlKind, control: Handle)
    // frame tick
    | RequestFrame
    | ClockDelta
    | ControlUpdate(control: Handle, arg: UpdateArg)
    | MixerUpdate(mixer: Handle, delta: real)
    | ObjectUpdate(id: string, callback: Handle, delta: real)
    | ComposerRender
    | RendererRender
    | StatsUpdate
    // animation
    | GltfLoad(path: string)
    | MixerCreate(mixer: Handle, root: Handle)
    | ClipActionPlay(mixer: Handle, clip: Handle)
    // audio
    | AudioCreate(audio: Handle, positional: bool)
    | AudioLoad(path: string)
    | AudioSetBuffer(audio: Handle, buffer: Handle)
    | AudioSetVolume(audio: Handle, volume: real)
    | AudioSetLoop(audio: Handle, loop: bool)
    | AudioSetRefDistance(audio: Handle, distance: real)
    | AudioSetMaxDistance(audio: Handle, distance: real)
    | AudioSetPosition(audio: Handle, position: Vec3)
    | AudioPlay(audio: Handle)

  /** The outcome of an asynchronous asset load: the loader's success
      callback with the loaded resource, or its error callback. */
  datatype LoadOutcome<+T> = Loaded(resource: T) | LoadFailed
}

=== FILE: controls.dfy ===
/**
 The camera-control selector of `ThreeService`: `setupControls`, which
 releases the current control and installs a fresh one of the requested
 kind, and the kind-dependent `update` call the frame tick makes on it.
 */
module Controls {
  import opened Base
  import opened State

  /** Which control classes of the loaded three.js build have a `dispose`
      method; `setupControls` probes for it before calling it. */
  datatype ControlLibrary = ControlLibrary(disposable: set<ControlKind>)

  /** The outcome of `setupControls`: `ok` is false when building the new
      control threw. */
  datatype SetupResult = SetupResult(state: Service, trace: seq<Event>, ok: bool)

  /** The tuning written onto a freshly built control of each kind. */
  function DefaultTuning(kind: ControlKind): Tuning {
    match kind
    case Orbit => OrbitTuning(true, 0.05)
    case FirstPerson => FirstPersonTuning(0.1, 10.0)
    case Fly => FlyTuning(10.0, 0.1)
    case PointerLock => LibraryDefaults
    case Trackball => LibraryDefaults
  }

  /** The release of the current control, skipped when there is none or
      its class has no `dispose`. */
  function ReleaseControl(current: Option<Control>): seq<Event> {
    match current
    case None => []
    case Some(c) => if c.hasDispose then [ControlDispose(c.handle)] else []
  }

  /** `setupControls(kind)`. The control type is recorded first and the
      previous control released and dropped; the new control is then built
      over the renderer's canvas. Without a renderer, reading its canvas
      throws, which leaves the new control type recorded and no control. */
  function SetupControls(s: Service, kind: ControlKind, lib: ControlLibrary): (r: SetupResult)
    requires Inv(s)
    ensures Inv(r.state)
    ensures r.state.controlType == kind
    ensures r.ok <==> s.hasRenderer
    // the previous control is released iff there was one and it has dispose
    ensures forall h: Handle :: ControlDispose(h) in r.trace <==>
      s.currentControl.Some? && s.currentControl.value.hasDispose && h == s.currentControl.value.handle
    // release happens before construction
    ensures forall i, j | 0 <= i < |r.trace| && 0 <= j < |r.trace| ::
      r.trace[i].ControlDispose? && r.trace[j].ControlConstruct? ==> i < j
    // at most the release and one construction
    ensures |r.trace| == |ReleaseControl(s.currentControl)| + (if r.ok then 1 else 0)
    ensures !r.ok ==> r.state.currentControl == None && r.state.nextHandle == s.nextHandle
    ensures !r.ok ==> forall e | e in r.trace :: !e.ControlConstruct?
    // on success a fresh control of the requested kind is installed and built once
    ensures r.ok ==>
      && r.state.currentControl.Some?
      && var c := r.state.currentControl.value;
      && c.kind == kind
      && c.hasDispose == (kind in lib.disposable)
      && (s.currentControl.Some? ==> c.handle != s.currentControl.value.handle)
      && (forall e | e in r.trace && e.ControlConstruct? :: e == ControlConstruct(kind, c.handle))
      && ControlConstruct(kind, c.handle) in r.trace
    // tuning is applied to orbit, first-person and fly controls only
    ensures r.ok && kind == Orbit ==> r.state.currentControl.value.tuning == OrbitTuning(true, 0.05)
    ensures r.ok && kind == FirstPerson ==> r.state.currentControl.value.tuning == FirstPersonTuning(0.1, 10.0)
    ensures r.ok && kind == Fly ==> r.state.currentControl.value.tuning == FlyTuning(10.0, 0.1)
    ensures r.ok && (kind == PointerLock || kind == Trackball) ==>
      r.state.currentControl.value.tuning == LibraryDefaults
    ensures r.state.(controlType := s.controlType, currentControl := s.currentControl, nextHandle := s.nextHandle) == s
  {
    var released := ReleaseControl(s.currentControl);
    var cleared := s.(controlType := kind, currentControl := None);
    if !s.hasRenderer then
      SetupResult(cleared, released, false)
    else
      var c := Control(kind, s.nextHandle, kind in lib.disposable, DefaultTuning(kind));
      SetupResult(cleared.(currentControl := Some(c), nextHandle := s.nextHandle + 1),
                  released + [ControlConstruct(kind, c.handle)], true)
  }

  /** The update contract of each kind: orbit and trackball are updated
      with no argument, first-person and fly with the frame's delta, and
      pointer-lock is not updated at all. */
  function UpdateForm(kind: ControlKind, delta: real): Option<UpdateArg> {
    match kind
    case Orbit => Some(NoArg)
    case Trackball => Some(NoArg)
    case FirstPerson => Some(WithDelta(delta))
    case Fly => Some(WithDelta(delta))
    case PointerLock => None
  }

  /** The control step of the frame tick, dispatching on `controlType` as
      the tick does. It makes exactly the call the kind's update contract
      asks for, and none without a control. */
  function ControlUpdateEvents(controlType: ControlKind, current: Option<Control>, delta: real): (r: seq<Event>)
    ensures current.None? ==> r == []
    ensures current.Some? ==>
      r == match UpdateForm(controlType, delta)
           case None => []
           case Some(arg) => [ControlUpdate(current.value.handle, arg)]
  {
    match current
    case None => []
    case Some(c) =>
      if controlType == Orbit || controlType == Trackball then [ControlUpdate(c.handle, NoArg)]
      else if controlType != PointerLock then [ControlUpdate(c.handle, WithDelta(delta))]
      else []
  }

  /** Switching from one installed control to another: the old control is
      released first (when it can be), then the new one is built, and the
      next tick updates the new control in its own kind's form. */
  lemma SwitchReleasesThenBuilds(s: Service, kind: ControlKind, lib: ControlLibrary, delta: real)
    requires Inv(s)
    requires s.hasRenderer
    requires s.currentControl.Some?
    ensures
      var prev := s.currentControl.value;
      var r := SetupControls(s, kind, lib);
      var c := r.state.currentControl.value;
      && r.trace == (if prev.hasDispose then [ControlDispose(prev.handle)] else []) + [ControlConstruct(kind, c.handle)]
      && c.handle != prev.handle
      && ControlUpdateEvents(r.state.controlType, r.state.currentControl, delta) ==
         (match UpdateForm(kind, delta)
          case None => []
          case Some(arg) => [ControlUpdate(c.handle, arg)])
  {
  }

  /** Requesting the same kind twice still builds a second, distinct
      control and releases the first. */
  lemma {:induction false} SameKindTwiceIsFresh(s: Service, kind: ControlKind, lib: ControlLibrary)
    requires Inv(s)
    requires s.hasRenderer
    ensures
      var first := SetupControls(s, kind, lib);
      var second := SetupControls(first.state, kind, lib);
      && first.ok && second.ok
      && second.state.currentControl.value.handle != first.state.currentControl.value.handle
      && (kind in lib.disposable ==>
            second.trace[0] == ControlDispose(first.state.currentControl.value.handle))
  {
  }
}

=== FILE: frameloop.dfy ===
/**
 The frame tick of `ThreeService` (`animate`). One tick schedules the next
 frame, reads the clock's delta, updates the camera control, every mixer
 and every object callback, renders, and updates the stats panel. A tick
 changes no state of the service: all it does is the calls in its trace.
 */
module FrameLoop {
  import opened Base
  import JsMap
  import opened State
  import opened Controls
  import Animation

  /** The calls of one tick; `completed` is false when rendering threw
      because there is neither a composer nor a renderer. */
  datatype TickResult = TickResult(trace: seq<Event>, completed: bool)

  /** `mixers.forEach(mixer => mixer.update(delta))`. */
  function MixerEvents(ms: seq<Mixer>, delta: real): (r: seq<Event>)
    ensures |r| == |ms|
    ensures forall i | 0 <= i < |ms| :: r[i] == MixerUpdate(ms[i].handle, delta)
  {
    if |ms| == 0 then [] else [MixerUpdate(ms[0].handle, delta)] + MixerEvents(ms[1..], delta)
  }

  /** `objects.forEach(obj => obj.update?.(delta))`, walking the keys in
      the map's iteration order. */
  function ObjectEvents(keys: seq<string>, entries: map<string, SceneObject>, delta: real): (r: seq<Event>)
    requires forall k | k in keys :: k in entries
    // each call is the registered callback of a key, with the tick's delta
    ensures forall e | e in r ::
      && e.ObjectUpdate?
      && e.id in keys
      && entries[e.id].update == Some(e.callback)
      && e.delta == delta
    // every key with a callback is called
    ensures forall k | k in keys && entries[k].update.Some? ::
      ObjectUpdate(k, entries[k].update.value, delta) in r
    // and only once
    ensures JsMap.Distinct(keys) ==>
      forall i, j | 0 <= i < j < |r| :: r[i].id != r[j].id
    decreases |keys|
  {
    if |keys| == 0 then []
    else
      var rest := ObjectEvents(keys[1..], entries, delta);
      JsMap.DistinctTail(keys);
      assert forall k | k in keys[1..] :: k in keys;
      var head := match entries[keys[0]].update
        case Some(cb) => [ObjectUpdate(keys[0], cb, delta)]
        case None => [];
      CallsDistinctByKey(keys, head, rest);
      head + rest
  }

  /** A call for the head key followed by calls for the later keys: the ids
      stay pairwise distinct when the keys are. */
  lemma CallsDistinctByKey(keys: seq<string>, head: seq<Event>, rest: seq<Event>)
    requires |keys| > 0
    requires |head| <= 1 && forall e | e in head :: e.ObjectUpdate? && e.id == keys[0]
    requires forall e | e in rest :: e.ObjectUpdate? && e.id in keys[1..]
    requires JsMap.Distinct(keys[1..]) ==> forall i, j | 0 <= i < j < |rest| :: rest[i].id != rest[j].id
    ensures JsMap.Distinct(keys) ==>
      forall i, j | 0 <= i < j < |head + rest| :: (head + rest)[i].id != (head + rest)[j].id
  {
    if JsMap.Distinct(keys) {
      JsMap.DistinctTail(keys);
      var r := head + rest;
      forall i, j | 0 <= i < j < |r| ensures r[i].id != r[j].id {
        assert r[j] == rest[j - |head|];
        assert rest[j - |head|] in rest;
        if i >= |head| {
          assert r[i] == rest[i - |head|];
        } else {
          assert r[i] in head;
        }
      }
    }
  }

  /** The render call and the stats update that follow the updates; empty
      when rendering throws for want of a composer and a renderer. */
  function RenderEvents(s: Service): (r: seq<Event>)
    ensures ComposerRender in r <==> s.composer.Some?
    ensures RendererRender in r <==> s.composer.None? && s.hasRenderer
    ensures StatsUpdate in r <==> (s.composer.Some? || s.hasRenderer) && s.hasStats
    // one render at most, and the stats panel updated at most once, after it
    ensures |r| == (if s.composer.Some? || s.hasRenderer then 1 else 0)
                   + (if (s.composer.Some? || s.hasRenderer) && s.hasStats then 1 else 0)
    ensures forall e | e in r :: 5 <= Phase(e) <= 6
  {
    var stats := if s.hasStats then [StatsUpdate] else [];
    if s.composer.Some? then [ComposerRender] + stats
    else if s.hasRenderer then [RendererRender] + stats
    else []
  }

  /** The calls of one tick in the order `animate` makes them: the frame
      request and the clock, the control update, every mixer, every object
      callback, then rendering. */
  function TickTrace(s: Service, delta: real): seq<Event>
    requires Inv(s)
  {
    [RequestFrame, ClockDelta]
    + ControlUpdateEvents(s.controlType, s.currentControl, delta)
    + MixerEvents(s.mixers, delta)
    + ObjectEvents(s.objects.keys, s.objects.entries, delta)
    + RenderEvents(s)
  }

  /** `animate`. The next frame is requested before anything else, so a
      tick whose rendering throws does not stop the loop. */
  function Animate(s: Service, delta: real): (r: TickResult)
    requires Inv(s)
    ensures |r.trace| >= 2 && r.trace[0] == RequestFrame && r.trace[1] == ClockDelta
    ensures r.completed <==> s.composer.Some? || s.hasRenderer
    // rendering goes through the composer when there is one, else directly
    ensures ComposerRender in r.trace <==> s.composer.Some?
    ensures RendererRender in r.trace <==> s.composer.None? && s.hasRenderer
    ensures StatsUpdate in r.trace <==> r.completed && s.hasStats
  {
    RenderOnlyAtEnd(s, delta);
    TickResult(TickTrace(s, delta), s.composer.Some? || s.hasRenderer)
  }

  /** The render and stats calls of a tick are those of its render block. */
  lemma RenderOnlyAtEnd(s: Service, delta: real)
    requires Inv(s)
    ensures var t := TickTrace(s, delta);
      && |t| >= 2 && t[0] == RequestFrame && t[1] == ClockDelta
      && forall e | 5 <= Phase(e) :: e in t <==> e in RenderEvents(s)
  {
    var c := ControlUpdateEvents(s.controlType, s.currentControl, delta);
    var m := MixerEvents(s.mixers, delta);
    var o := ObjectEvents(s.objects.keys, s.objects.entries, delta);
    var pre := [RequestFrame, ClockDelta] + c + m + o;
    assert forall e | e in pre :: Phase(e) <= 4 by {
      ControlPhase(s.controlType, s.currentControl, delta);
      MixerPhase(s.mixers, delta);
      ObjectPhase(s.objects.keys, s.objects.entries, delta);
      PrefixPhases(c, m, o);
    }
    assert TickTrace(s, delta) == pre + RenderEvents(s);
    assert pre[0] == RequestFrame && pre[1] == ClockDelta;
    OnlyInTail(pre, RenderEvents(s));
  }

  /** The frame request, the clock and the update blocks all rank below
      rendering. */
  lemma PrefixPhases(c: seq<Event>, m: seq<Event>, o: seq<Event>)
    requires Within(c, 2, 2) && Within(m, 3, 3) && Within(o, 4, 4)
    ensures forall e | e in [RequestFrame, ClockDelta] + c + m + o :: Phase(e) <= 4
  {
    Members(c, 2, 2);
    Members(m, 3, 3);
    Members(o, 4, 4);
  }

  /** Membership form of `Within`. */
  lemma Members(t: seq<Event>, lo: nat, hi: nat)
    requires Within(t, lo, hi)
    ensures forall e | e in t :: lo <= Phase(e) <= hi
  {
  }

  /** Calls of phase 5 or later are in `pre + tail` exactly when they are in
      `tail`, when `pre` holds only earlier phases. */
  lemma OnlyInTail(pre: seq<Event>, tail: seq<Event>)
    requires forall e | e in pre :: Phase(e) <= 4
    ensures forall e | 5 <= Phase(e) :: e in pre + tail <==> e in tail
  {
  }

  /** The pieces of a tick's trace, in the order `animate` makes them. */
  lemma TickPieces(s: Service, delta: real)
    requires Inv(s)
    ensures Animate(s, delta).trace ==
      [RequestFrame, ClockDelta]
      + ControlUpdateEvents(s.controlType, s.currentControl, delta)
      + MixerEvents(s.mixers, delta)
      + ObjectEvents(s.objects.keys, s.objects.entries, delta)
      + RenderEvents(s)
  {
  }

  /** The rank of an event in the tick's fixed order. */
  function Phase(e: Event): nat {
    match e
    case RequestFrame => 0
    case ClockDelta => 1
    case ControlUpdate(_, _) => 2
    case MixerUpdate(_, _) => 3
    case ObjectUpdate(_, _, _) => 4
    case ComposerRender => 5
    case RendererRender => 5
    case StatsUpdate => 6
    case _ => 7
  }

  ghost predicate InOrder(t: seq<Event>) {
    forall i, j | 0 <= i < j < |t| :: Phase(t[i]) <= Phase(t[j])
  }

  ghost predicate Within(t: seq<Event>, lo: nat, hi: nat) {
    forall i | 0 <= i < |t| :: lo <= Phase(t[i]) <= hi
  }

  lemma AppendInOrder(a: seq<Event>, b: seq<Event>, p: nat, q: nat)
    requires p <= q
    requires InOrder(a) && InOrder(b)
    requires Within(a, 0, p) && Within(b, p, q)
    ensures InOrder(a + b) && Within(a + b, 0, q)
  {
    forall i, j | 0 <= i < j < |a + b| ensures Phase((a + b)[i]) <= Phase((a + b)[j]) {
      if j < |a| {
      } else if i >= |a| {
        assert (a + b)[i] == b[i - |a|] && (a + b)[j] == b[j - |a|];
      } else {
        assert (a + b)[j] == b[j - |a|];
      }
    }
    forall i | 0 <= i < |a + b| ensures Phase((a + b)[i]) <= q {
      if i >= |a| {
        assert (a + b)[i] == b[i - |a|];
      }
    }
  }

  /** Blocks of increasing phase, concatenated, are in order. */
  lemma PiecesInOrder(c: seq<Event>, m: seq<Event>, o: seq<Event>, tail: seq<Event>)
    requires Within(c, 2, 2) && Within(m, 3, 3) && Within(o, 4, 4)
    requires Within(tail, 5, 6) && InOrder(tail)
    ensures InOrder([RequestFrame, ClockDelta] + c + m + o + tail)
    ensures Within([RequestFrame, ClockDelta] + c + m + o + tail, 0, 6)
  {
    var head := [RequestFrame, ClockDelta];
    AppendInOrder(head, c, 2, 2);
    AppendInOrder(head + c, m, 3, 3);
    AppendInOrder(head + c + m, o, 4, 4);
    AppendInOrder(head + c + m + o, tail, 5, 6);
  }

  lemma ControlPhase(controlType: ControlKind, current: Option<Control>, delta: real)
    ensures Within(ControlUpdateEvents(controlType, current, delta), 2, 2)
  {
  }

  lemma MixerPhase(ms: seq<Mixer>, delta: real)
    ensures Within(MixerEvents(ms, delta), 3, 3)
  {
  }

  lemma ObjectPhase(keys: seq<string>, entries: map<string, SceneObject>, delta: real)
    requires forall k | k in keys :: k in entries
    ensures Within(ObjectEvents(keys, entries, delta), 4, 4)
  {
    var o := ObjectEvents(keys, entries, delta);
    forall i | 0 <= i < |o| ensures Phase(o[i]) == 4 {
      assert o[i] in o;
    }
  }

  lemma RenderPhase(s: Service)
    ensures Within(RenderEvents(s), 5, 6) && InOrder(RenderEvents(s))
  {
  }

  /** Every tick makes its calls in the fixed order: schedule the next
      frame, read the delta, update the control, then the mixers, then the
      object callbacks, then render, then the stats panel. */
  lemma {:induction false} TickPhasesInOrder(s: Service, delta: real)
    requires Inv(s)
    ensures InOrder(Animate(s, delta).trace)
    // and makes no call outside those seven phases
    ensures forall i | 0 <= i < |Animate(s, delta).trace| :: Phase(Animate(s, delta).trace[i]) <= 6
  {
    TickPieces(s, delta);
    ControlPhase(s.controlType, s.currentControl, delta);
    MixerPhase(s.mixers, delta);
    ObjectPhase(s.objects.keys, s.objects.entries, delta);
    RenderPhase(s);
    PiecesInOrder(ControlUpdateEvents(s.controlType, s.currentControl, delta),
                  MixerEvents(s.mixers, delta),
                  ObjectEvents(s.objects.keys, s.objects.entries, delta),
                  RenderEvents(s));
  }

  /** The mixers a trace advances, in call order. */
  function MixersUpdated(t: seq<Event>): seq<Handle> {
    if |t| == 0 then []
    else (if t[0].MixerUpdate? then [t[0].mixer] else []) + MixersUpdated(t[1..])
  }

  lemma {:induction false} MixersUpdatedAppend(a: seq<Event>, b: seq<Event>)
    ensures MixersUpdated(a + b) == MixersUpdated(a) + MixersUpdated(b)
    decreases |a|
  {
    if |a| == 0 {
      assert a + b == b;
    } else {
      assert (a + b)[0] == a[0];
      assert (a + b)[1..] == a[1..] + b;
      MixersUpdatedAppend(a[1..], b);
    }
  }

  lemma {:induction false} MixersUpdatedNone(t: seq<Event>)
    requires forall i | 0 <= i < |t| :: Phase(t[i]) != 3
    ensures MixersUpdated(t) == []
    decreases |t|
  {
    if |t| > 0 {
      assert forall i | 0 <= i < |t[1..]| :: t[1..][i] == t[i + 1];
      MixersUpdatedNone(t[1..]);
    }
  }

  lemma {:induction false} MixersUpdatedOfMixerEvents(ms: seq<Mixer>, delta: real)
    ensures MixersUpdated(MixerEvents(ms, delta)) == Animation.MixerHandles(ms)
    decreases |ms|
  {
    if |ms| > 0 {
      var r := MixerEvents(ms, delta);
      assert r[1..] == MixerEvents(ms[1..], delta);
      MixersUpdatedOfMixerEvents(ms[1..], delta);
    }
  }

  /** A tick advances every registered mixer exactly once, in the order
      the mixers were created, and no other mixer, each by the tick's
      delta. */
  lemma {:induction false} TickUpdatesMixersInOrder(s: Service, delta: real)
    requires Inv(s)
    ensures MixersUpdated(Animate(s, delta).trace) == Animation.MixerHandles(s.mixers)
    ensures forall e | e in Animate(s, delta).trace && e.MixerUpdate? :: e.delta == delta
  {
    TickPieces(s, delta);
    var head := [RequestFrame, ClockDelta];
    var c := ControlUpdateEvents(s.controlType, s.currentControl, delta);
    var m := MixerEvents(s.mixers, delta);
    var o := ObjectEvents(s.objects.keys, s.objects.entries, delta);
    var tail := RenderEvents(s);
    ControlPhase(s.controlType, s.currentControl, delta);
    ObjectPhase(s.objects.keys, s.objects.entries, delta);
    RenderPhase(s);
    MixersUpdatedOfMixerEvents(s.mixers, delta);
    MixerPieces(head, c, m, o, tail, delta);
  }

  /** Only the mixer block of a tick's pieces advances mixers. */
  lemma MixerPieces(head: seq<Event>, c: seq<Event>, m: seq<Event>, o: seq<Event>, tail: seq<Event>, delta: real)
    requires head == [RequestFrame, ClockDelta]
    requires Within(c, 2, 2) && Within(o, 4, 4) && Within(tail, 5, 6)
    requires forall i | 0 <= i < |m| :: m[i].MixerUpdate? && m[i].delta == delta
    ensures MixersUpdated(head + c + m + o + tail) == MixersUpdated(m)
    ensures forall e | e in head + c + m + o + tail && e.MixerUpdate? :: e.delta == delta
  {
    var hc := head + c;
    var hcm := hc + m;
    var hcmo := hcm + o;
    assert MixersUpdated(hcm) == MixersUpdated(m) by {
      MixersUpdatedNone(hc);
      MixersUpdatedAppend(hc, m);
    }
    assert MixersUpdated(hcmo) == MixersUpdated(m) by {
      MixersUpdatedNone(o);
      MixersUpdatedAppend(hcm, o);
    }
    assert MixersUpdated(hcmo + tail) == MixersUpdated(m) by {
      MixersUpdatedNone(tail);
      MixersUpdatedAppend(hcmo, tail);
    }
    MixerDeltas(head, c, m, o, tail, delta);
  }

  lemma MixerDeltas(head: seq<Event>, c: seq<Event>, m: seq<Event>, o: seq<Event>, tail: seq<Event>, delta: real)
    requires head == [RequestFrame, ClockDelta]
    requires Within(c, 2, 2) && Within(o, 4, 4) && Within(tail, 5, 6)
    requires forall i | 0 <= i < |m| :: m[i].MixerUpdate? && m[i].delta == delta
    ensures forall e | e in head + c + m + o + tail && e.MixerUpdate? :: e.delta == delta
  {
    Members(c, 2, 2);
    Members(o, 4, 4);
    Members(tail, 5, 6);
    forall e | e in head + c + m + o + tail && e.MixerUpdate? ensures e.delta == delta {
      assert e in m;
      var i :| 0 <= i < |m| && m[i] == e;
    }
  }

  /** The element at `i` of the mixer block is in the tick's pieces. */
  lemma PieceElement(head: seq<Event>, c: seq<Event>, m: seq<Event>, o: seq<Event>, tail: seq<Event>, i: nat)
    requires i < |m|
    ensures m[i] in head + c + m + o + tail
  {
    var hcm := head + c + m;
    assert hcm[|head + c| + i] == m[i];
    assert (hcm + o + tail)[|head + c| + i] == hcm[|head + c| + i];
  }

  /** Every tick advances every registered mixer with its delta. */
  lemma {:induction false} TickAdvancesEveryMixer(s: Service, delta: real)
    requires Inv(s)
    ensures forall i | 0 <= i < |s.mixers| :: MixerUpdate(s.mixers[i].handle, delta) in Animate(s, delta).trace
  {
    var head := [RequestFrame, ClockDelta];
    var c := ControlUpdateEvents(s.controlType, s.currentControl, delta);
    var m := MixerEvents(s.mixers, delta);
    var o := ObjectEvents(s.objects.keys, s.objects.entries, delta);
    var tail := RenderEvents(s);
    TickPieces(s, delta);
    forall i | 0 <= i < |s.mixers|
      ensures MixerUpdate(s.mixers[i].handle, delta) in head + c + m + o + tail
    {
      PieceElement(head, c, m, o, tail, i);
    }
  }

  /** In `a + o + b`, where only `o` holds object callbacks, two callback
      calls at different positions are calls for different ids when they
      are in `o`. */
  lemma CallbacksOnlyIn(a: seq<Event>, o: seq<Event>, b: seq<Event>)
    requires forall e | e in a + b :: !e.ObjectUpdate?
    requires forall i, j | 0 <= i < j < |o| :: o[i].ObjectUpdate? && o[j].ObjectUpdate? ==> o[i].id != o[j].id
    ensures var t := a + o + b;
      forall i, j | 0 <= i < j < |t| && t[i].ObjectUpdate? && t[j].ObjectUpdate? :: t[i].id != t[j].id
  {
    var t := a + o + b;
    forall i, j | 0 <= i < j < |t| && t[i].ObjectUpdate? && t[j].ObjectUpdate?
      ensures t[i].id != t[j].id
    {
      if i < |a| {
        assert false;
      } else if j >= |a| + |o| {
        assert false;
      } else {
        assert t[i] == o[i - |a|] && t[j] == o[j - |a|];
      }
    }
  }

  /** Membership in `a + o + b` of an event that `a` and `b` do not hold. */
  lemma InMiddle(a: seq<Event>, o: seq<Event>, b: seq<Event>, e: Event)
    requires e !in a && e !in b
    ensures e in a + o + b <==> e in o
  {
  }

  /** The calls of a tick around its object callbacks. */
  lemma AroundCallbacks(s: Service, delta: real)
    requires Inv(s)
    ensures
      var t := Animate(s, delta).trace;
      var pre := [RequestFrame, ClockDelta]
        + ControlUpdateEvents(s.controlType, s.currentControl, delta)
        + MixerEvents(s.mixers, delta);
      var o := ObjectEvents(s.objects.keys, s.objects.entries, delta);
      var tail := RenderEvents(s);
      && t == pre + o + tail
      && (forall e | e in pre :: !e.ObjectUpdate?)
      && (forall e | e in tail :: !e.ObjectUpdate?)
  {
    TickPieces(s, delta);
    var m := MixerEvents(s.mixers, delta);
    assert forall e | e in m :: e.MixerUpdate? by {
      forall e | e in m ensures e.MixerUpdate? {
        var i :| 0 <= i < |m| && m[i] == e;
      }
    }
  }

  /** A tick calls exactly the registered callbacks, with the tick's delta. */
  lemma {:induction false} TickCallsRegisteredCallbacks(s: Service, delta: real)
    requires Inv(s)
    ensures
      var t := Animate(s, delta).trace;
      forall id: string, cb: Handle, d: real :: ObjectUpdate(id, cb, d) in t <==>
        && id in s.objects.entries
        && s.objects.entries[id].update == Some(cb)
        && d == delta
  {
    AroundCallbacks(s, delta);
    var pre := [RequestFrame, ClockDelta]
      + ControlUpdateEvents(s.controlType, s.currentControl, delta)
      + MixerEvents(s.mixers, delta);
    var o := ObjectEvents(s.objects.keys, s.objects.entries, delta);
    var tail := RenderEvents(s);
    forall id: string, cb: Handle, d: real
      ensures ObjectUpdate(id, cb, d) in pre + o + tail <==> ObjectUpdate(id, cb, d) in o
    {
      InMiddle(pre, o, tail, ObjectUpdate(id, cb, d));
    }
  }

  /** A tick calls the callback of each id at most once. */
  lemma {:induction false} TickCallsEachIdOnce(s: Service, delta: real)
    requires Inv(s)
    ensures
      var t := Animate(s, delta).trace;
      forall i, j | 0 <= i < j < |t| && t[i].ObjectUpdate? && t[j].ObjectUpdate? :: t[i].id != t[j].id
  {
    AroundCallbacks(s, delta);
    var pre := [RequestFrame, ClockDelta]
      + ControlUpdateEvents(s.controlType, s.currentControl, delta)
      + MixerEvents(s.mixers, delta);
    var tail := RenderEvents(s);
    assert forall e: Event | e in pre + tail :: !e.ObjectUpdate?;
    CallbacksOnlyIn(pre, ObjectEvents(s.objects.keys, s.objects.entries, delta), tail);
  }

  /** A tick calls the callback of every registered object that has one,
      with the tick's delta, exactly once each, and calls nothing else on
      behalf of the registry. */
  lemma {:induction false} TickCallsEachCallbackOnce(s: Service, delta: real)
    requires Inv(s)
    ensures
      var t := Animate(s, delta).trace;
      && (forall id: string, cb: Handle, d: real :: ObjectUpdate(id, cb, d) in t <==>
            && id in s.objects.entries
            && s.objects.entries[id].update == Some(cb)
            && d == delta)
      && (forall i, j | 0 <= i < j < |t| && t[i].ObjectUpdate? && t[j].ObjectUpdate? :: t[i].id != t[j].id)
  {
    TickCallsRegisteredCallbacks(s, delta);
    TickCallsEachIdOnce(s, delta);
  }

  /** In `[RequestFrame, ClockDelta] + c + m + o + tail`, where only `c`
      can hold control updates, a control update is in the whole exactly
      when it is in `c`. */
  lemma ControlUpdatesOnlyIn(c: seq<Event>, m: seq<Event>, o: seq<Event>, tail: seq<Event>, e: Event)
    requires e.ControlUpdate?
    requires forall x | x in m :: Phase(x) != 2
    requires forall x | x in o :: Phase(x) != 2
    requires forall x | x in tail :: Phase(x) != 2
    ensures e in [RequestFrame, ClockDelta] + c + m + o + tail <==> e in c
  {
    var head := [RequestFrame, ClockDelta];
    assert head + c + m + o + tail == head + c + (m + o + tail);
    InMiddle(head, c, m + o + tail, e);
  }

  /** The control step of a tick is exactly the call the installed
      control's kind asks for. */
  lemma {:induction false} TickUpdatesControlByKind(s: Service, delta: real)
    requires Inv(s)
    ensures
      var t := Animate(s, delta).trace;
      forall h: Handle, arg: UpdateArg :: ControlUpdate(h, arg) in t <==>
        && s.currentControl.Some?
        && h == s.currentControl.value.handle
        && UpdateForm(s.currentControl.value.kind, delta) == Some(arg)
  {
    TickPieces(s, delta);
    var c := ControlUpdateEvents(s.controlType, s.currentControl, delta);
    var m := MixerEvents(s.mixers, delta);
    var o := ObjectEvents(s.objects.keys, s.objects.entries, delta);
    var tail := RenderEvents(s);
    MixerPhase(s.mixers, delta);
    ObjectPhase(s.objects.keys, s.objects.entries, delta);
    RenderPhase(s);
    Members(m, 3, 3);
    Members(o, 4, 4);
    Members(tail, 5, 6);
    forall h: Handle, arg: UpdateArg
      ensures ControlUpdate(h, arg) in [RequestFrame, ClockDelta] + c + m + o + tail <==> ControlUpdate(h, arg) in c
    {
      ControlUpdatesOnlyIn(c, m, o, tail, ControlUpdate(h, arg));
    }
  }
}

=== FILE: input.dfy ===
/**
 Keyboard state of `ThreeService`: the `keydown`/`keyup` listeners write
 into the `keyStates` map, and `isKeyPressed` reads it.
 */
module Input {
  import opened Base
  import opened State

  /** A keyboard event as the document listeners receive it. */
  datatype KeyEvent = KeyDown(code: string) | KeyUp(code: string)

  /** One listener call: `keydown` records `true`, `keyup` records `false`. */
  function OnKey(s: Service, e: KeyEvent): (r: Service)
    requires Inv(s)
    ensures Inv(r)
    ensures r.keyStates == s.keyStates[e.code := e.KeyDown?]
    ensures r.(keyStates := s.keyStates) == s
  {
    match e
    case KeyDown(code) => s.(keyStates := s.keyStates[code := true])
    case KeyUp(code) => s.(keyStates := s.keyStates[code := false])
  }

  /** `isKeyPressed`: the recorded state is exactly `true`. */
  function IsKeyPressed(s: Service, code: string): (r: bool)
    // a code with no recorded event reads as not pressed
    ensures code !in s.keyStates ==> !r
    ensures code in s.keyStates ==> (r <==> s.keyStates[code])
  {
    code in s.keyStates && s.keyStates[code] == true
  }

  /** The listener calls for a sequence of events, first to last. */
  function OnKeys(s: Service, es: seq<KeyEvent>): (r: Service)
    requires Inv(s)
    ensures Inv(r)
    ensures r.(keyStates := s.keyStates) == s
    decreases |es|
  {
    if |es| == 0 then s else OnKeys(OnKey(s, es[0]), es[1..])
  }

  /** The most recent event for `code`, if any. */
  function LastEventFor(es: seq<KeyEvent>, code: string): Option<KeyEvent>
    decreases |es|
  {
    if |es| == 0 then None
    else if es[|es| - 1].code == code then Some(es[|es| - 1])
    else LastEventFor(es[..|es| - 1], code)
  }

  /** Handling one more event is the last listener call. */
  lemma {:induction false} OnKeysSnoc(s: Service, es: seq<KeyEvent>, e: KeyEvent)
    requires Inv(s)
    ensures OnKeys(s, es + [e]) == OnKey(OnKeys(s, es), e)
    decreases |es|
  {
    if |es| == 0 {
      assert es + [e] == [e];
      assert [e][1..] == [];
    } else {
      assert (es + [e])[0] == es[0];
      assert (es + [e])[1..] == es[1..] + [e];
      OnKeysSnoc(OnKey(s, es[0]), es[1..], e);
    }
  }

  /** After any events, a key reads as pressed exactly when the most recent
      event for its code was a `keydown`; a code with no event keeps its
      earlier state. */
  lemma {:induction false} PressedIffLastWasDown(s: Service, es: seq<KeyEvent>, code: string)
    requires Inv(s)
    ensures IsKeyPressed(OnKeys(s, es), code) <==>
      match LastEventFor(es, code)
      case Some(e) => e.KeyDown?
      case None => IsKeyPressed(s, code)
    decreases |es|
  {
    if |es| > 0 {
      var init := es[..|es| - 1];
      var last := es[|es| - 1];
      assert es == init + [last];
      OnKeysSnoc(s, init, last);
      PressedIffLastWasDown(s, init, code);
    }
  }

  /** From the constructor's empty map, a key reads as pressed exactly when
      its most recent event was a `keydown`; a code never seen reads false. */
  lemma {:induction false} PressedFromStart(es: seq<KeyEvent>, code: string)
    ensures IsKeyPressed(OnKeys(Init(), es), code) <==> LastEventFor(es, code).Some? && LastEventFor(es, code).value.KeyDown?
  {
    PressedIffLastWasDown(Init(), es, code);
  }
}

=== FILE: jsmap.dfy ===
/**
 The JavaScript `Map` the service keeps its scene objects in.

 A JavaScript `Map` iterates in insertion order: `set` on a key that is
 already present replaces the value but keeps the key's position, and a key
 that is deleted and set again moves to the end. The per-frame tick walks the
 object map with `forEach`, so this order is observable and is modelled.
 */
module JsMap {
  import opened Base

  /** `keys` is the iteration order, `entries` the contents. */
  datatype OrderedMap<V> = OrderedMap(keys: seq<string>, entries: map<string, V>)

  ghost predicate Distinct(s: seq<string>) {
    forall i, j | 0 <= i < j < |s| :: s[i] != s[j]
  }

  /** Each key present once in the iteration order, and exactly the keys
      that have an entry. */
  ghost predicate Valid<V>(m: OrderedMap<V>) {
    && Distinct(m.keys)
    && (forall k :: k in m.entries <==> k in m.keys)
  }

  function Empty<V>(): (m: OrderedMap<V>)
    ensures Valid(m)
    ensures |m.entries| == 0 && |m.keys| == 0
  {
    OrderedMap([], map[])
  }

  /** `Map.prototype.get`, with `undefined` as `None`. */
  function Get<V>(m: OrderedMap<V>, k: string): Option<V> {
    if k in m.entries then Some(m.entries[k]) else None
  }

  /** `Map.prototype.set`. */
  function Set<V>(m: OrderedMap<V>, k: string, v: V): (r: OrderedMap<V>)
    requires Valid(m)
    ensures Valid(r)
    ensures Get(r, k) == Some(v)
    ensures forall k' :: k' != k ==> Get(r, k') == Get(m, k')
    // an existing key keeps its place in the iteration order
    ensures k in m.entries ==> r.keys == m.keys
    // a new key is iterated last
    ensures k !in m.entries ==> r.keys == m.keys + [k]
  {
    if k in m.entries then OrderedMap(m.keys, m.entries[k := v])
    else OrderedMap(m.keys + [k], m.entries[k := v])
  }

  /** `Map.prototype.delete`. */
  function Delete<V>(m: OrderedMap<V>, k: string): (r: OrderedMap<V>)
    requires Valid(m)
    ensures Valid(r)
    ensures Get(r, k) == None
    ensures forall k' :: k' != k ==> Get(r, k') == Get(m, k')
    ensures k !in m.entries ==> r == m
    ensures k in m.entries ==> |r.keys| == |m.keys| - 1
    // the remaining keys keep their relative iteration order
    ensures forall i | 0 <= i < |m.keys| && m.keys[i] == k :: r.keys == m.keys[..i] + m.keys[i + 1..]
  {
    var ks := Without(m.keys, k);
    if k in m.entries then
      WithoutLength(m.keys, k);
      OrderedMap(ks, m.entries - {k})
    else
      OrderedMap(ks, m.entries)
  }

  /** `s` with every occurrence of `k` removed, the rest kept in order. */
  function Without(s: seq<string>, k: string): (r: seq<string>)
    ensures forall x :: x in r <==> x in s && x != k
    ensures k !in s ==> r == s
    ensures Distinct(s) ==> Distinct(r)
    // a key present once is cut out at its position
    ensures Distinct(s) ==> forall i | 0 <= i < |s| && s[i] == k :: r == s[..i] + s[i + 1..]
  {
    if |s| == 0 then []
    else
      var rest := Without(s[1..], k);
      DistinctTail(s);
      if s[0] == k then
        DistinctHeadOnly(s);
        rest
      else
        DistinctCons(s[0], rest);
        WithoutStep(s, k, rest);
        [s[0]] + rest
  }

  /** In a sequence without repeats, only position 0 holds the head. */
  lemma DistinctHeadOnly(s: seq<string>)
    requires |s| > 0
    ensures Distinct(s) ==> forall i | 0 <= i < |s| && s[i] == s[0] :: i == 0
  {
  }

  /** Cutting out a later position commutes with keeping the head. */
  lemma WithoutStep(s: seq<string>, k: string, rest: seq<string>)
    requires |s| > 0 && s[0] != k
    requires Distinct(s[1..]) ==>
      forall i | 0 <= i < |s[1..]| && s[1..][i] == k :: rest == s[1..][..i] + s[1..][i + 1..]
    ensures Distinct(s) ==> forall i | 0 <= i < |s| && s[i] == k :: [s[0]] + rest == s[..i] + s[i + 1..]
  {
    if Distinct(s) {
      DistinctTail(s);
      forall i | 0 <= i < |s| && s[i] == k ensures [s[0]] + rest == s[..i] + s[i + 1..] {
        assert i > 0;
        assert s[1..][i - 1] == k;
        assert rest == s[1..][..i - 1] + s[1..][i..];
        assert s[..i] == [s[0]] + s[1..][..i - 1];
        assert s[i + 1..] == s[1..][i..];
      }
    }
  }

  lemma DistinctTail(s: seq<string>)
    requires |s| > 0
    ensures Distinct(s) ==> Distinct(s[1..]) && s[0] !in s[1..]
  {
    if Distinct(s) {
      forall i | 0 <= i < |s[1..]| ensures s[1..][i] != s[0] {
        assert s[1..][i] == s[i + 1];
      }
      forall i, j | 0 <= i < j < |s[1..]| ensures s[1..][i] != s[1..][j] {
        assert s[1..][i] == s[i + 1] && s[1..][j] == s[j + 1];
      }
    }
  }

  lemma DistinctCons(x: string, t: seq<string>)
    ensures Distinct(t) && x !in t ==> Distinct([x] + t)
  {
    if Distinct(t) && x !in t {
      forall i, j | 0 <= i < j < |[x] + t| ensures ([x] + t)[i] != ([x] + t)[j] {
        if i > 0 {
          assert ([x] + t)[i] == t[i - 1];
        }
        assert ([x] + t)[j] == t[j - 1];
      }
    }
  }

  /** Removing a key that occurs once shortens the order by exactly one. */
  lemma {:induction false} WithoutLength(s: seq<string>, k: string)
    requires Distinct(s)
    requires k in s
    ensures |Without(s, k)| == |s| - 1
  {
    DistinctTail(s);
    if s[0] != k {
      WithoutLength(s[1..], k);
    }
  }

  /** Removing a key that was appended last gives back the earlier order. */
  lemma {:induction false} WithoutAppended(ks: seq<string>, k: string)
    requires k !in ks
    ensures Without(ks + [k], k) == ks
  {
    if |ks| == 0 {
      assert ks + [k] == [k];
      assert [k][1..] == [];
    } else {
      assert (ks + [k])[0] == ks[0];
      assert (ks + [k])[1..] == ks[1..] + [k];
      WithoutAppended(ks[1..], k);
      assert [ks[0]] + ks[1..] == ks;
    }
  }

  /** Setting a new key and deleting it again gives back the map, order
      included. */
  lemma SetThenDeleteFresh<V>(m: OrderedMap<V>, k: string, v: V)
    requires Valid(m)
    requires k !in m.entries
    ensures Delete(Set(m, k, v), k) == m
  {
    WithoutAppended(m.keys, k);
    assert m.entries[k := v] - {k} == m.entries;
  }
}

=== FILE: registry.dfy ===
/**
 The object registry of `ThreeService`: `addObject`, `removeObject` and
 `getObject` over the `objects` map, together with the scene-graph calls and
 the release of a mesh's geometry and materials on removal.
 */
module Registry {
  import opened Base
  import JsMap
  import opened State

  /** `getObject`: the registered object, or `None` for an unknown id. */
  function GetObject(s: Service, id: string): (r: Option<Object3D>)
    // `undefined` exactly for an id with no entry
    ensures r.Some? <==> id in s.objects.entries
    ensures r.Some? ==> r.value == s.objects.entries[id].obj
  {
    match JsMap.Get(s.objects, id)
    case None => None
    case Some(entry) => Some(entry.obj)
  }

  /** `addObject`: adds the object to the scene, then registers it under
      `id`, overwriting whatever was registered there before. */
  function AddObject(s: Service, id: string, obj: Object3D, update: Option<Handle>): (r: Step)
    requires Inv(s)
    ensures Inv(r.state)
    ensures GetObject(r.state, id) == Some(obj)
    // the entry keeps the per-frame callback the tick will call
    ensures JsMap.Get(r.state.objects, id) == Some(SceneObject(id, obj, update))
    // entries under other ids, callbacks included, are unchanged
    ensures forall other | other != id :: JsMap.Get(r.state.objects, other) == JsMap.Get(s.objects, other)
    ensures forall other | other != id :: GetObject(r.state, other) == GetObject(s, other)
    // the only library call is the scene insertion; nothing is removed or released
    ensures r.trace == [SceneAdd(ObjectNode(obj.handle))]
    ensures r.state.scene == s.scene + {ObjectNode(obj.handle)}
    ensures r.state.(objects := s.objects, scene := s.scene) == s
  {
    var objects := JsMap.Set(s.objects, id, SceneObject(id, obj, update));
    Step(s.(scene := s.scene + {ObjectNode(obj.handle)}, objects := objects),
         [SceneAdd(ObjectNode(obj.handle))])
  }

  /** The material handles a mesh holds, in array order. */
  function Materials(m: MeshMaterial): seq<Handle> {
    match m
    case NoMaterial => []
    case OneMaterial(h) => [h]
    case MaterialArray(hs) => hs
  }

  /** The release calls `removeObject` makes for an object: a mesh's
      geometry if it has one, then its material or each of its materials;
      nothing for an object that is not a mesh. */
  function ReleaseEvents(o: Object3D): seq<Event> {
    match o.shape
    case NotMesh => []
    case Mesh(geometry, material) =>
      (if geometry.Some? then [GeometryDispose(geometry.value)] else [])
      + match material
        case MaterialArray(hs) => MaterialDisposals(hs)
        case OneMaterial(h) => [MaterialDispose(h)]
        case NoMaterial => []
  }

  /** `forEach(mat => mat.dispose())` over a material array. */
  function MaterialDisposals(hs: seq<Handle>): (r: seq<Event>)
    ensures |r| == |hs|
    ensures forall i | 0 <= i < |hs| :: r[i] == MaterialDispose(hs[i])
  {
    if |hs| == 0 then [] else [MaterialDispose(hs[0])] + MaterialDisposals(hs[1..])
  }

  /** `removeObject`: for a registered id, removes the object from the scene
      and the registry and releases what it owns; for an unknown id, does
      nothing. */
  function RemoveObject(s: Service, id: string): (r: Step)
    requires Inv(s)
    ensures Inv(r.state)
    ensures GetObject(r.state, id) == None
    // entries under other ids, callbacks included, are unchanged
    ensures forall other | other != id :: JsMap.Get(r.state.objects, other) == JsMap.Get(s.objects, other)
    ensures forall other | other != id :: GetObject(r.state, other) == GetObject(s, other)
    ensures GetObject(s, id) == None ==> r == Step(s, [])
    ensures GetObject(s, id).Some? ==>
      var o := GetObject(s, id).value;
      && r.trace == [SceneRemove(ObjectNode(o.handle))] + ReleaseEvents(o)
      && r.state.scene == s.scene - {ObjectNode(o.handle)}
    ensures r.state.(objects := s.objects, scene := s.scene) == s
  {
    match JsMap.Get(s.objects, id)
    case None => Step(s, [])
    case Some(entry) =>
      var node := ObjectNode(entry.obj.handle);
      Step(s.(scene := s.scene - {node}, objects := JsMap.Delete(s.objects, id)),
           [SceneRemove(node)] + ReleaseEvents(entry.obj))
  }

  /** Release is complete and exact: for a mesh, a geometry is released iff
      it is the mesh's geometry and a material iff it is one of the mesh's
      materials, with one call per geometry and per material slot; an
      object that is not a mesh is released nothing. */
  lemma ReleaseEventsExact(o: Object3D)
    ensures o.shape.NotMesh? ==> ReleaseEvents(o) == []
    ensures o.shape.Mesh? ==>
      && (forall g: Handle :: GeometryDispose(g) in ReleaseEvents(o) <==> o.shape.geometry == Some(g))
      && (forall m: Handle :: MaterialDispose(m) in ReleaseEvents(o) <==> m in Materials(o.shape.material))
      && |ReleaseEvents(o)| == (if o.shape.geometry.Some? then 1 else 0) + |Materials(o.shape.material)|
  {
    if o.shape.Mesh? {
      var ms := Materials(o.shape.material);
      var gs: seq<Event> := if o.shape.geometry.Some? then [GeometryDispose(o.shape.geometry.value)] else [];
      var ds := MaterialDisposals(ms);
      assert ReleaseEvents(o) == gs + ds;
      forall m: Handle ensures MaterialDispose(m) in ds <==> m in ms {
        if m in ms {
          var i :| 0 <= i < |ms| && ms[i] == m;
          assert ds[i] == MaterialDispose(m);
        }
      }
    }
  }

  /** Removal is idempotent: a second `removeObject` of the same id makes
      no call and changes nothing, so a second removal of the same id
      releases nothing. */
  lemma {:induction false} RemoveTwiceReleasesOnce(s: Service, id: string)
    requires Inv(s)
    ensures
      var first := RemoveObject(s, id);
      var second := RemoveObject(first.state, id);
      && second == Step(first.state, [])
      && first.trace + second.trace ==
         (if GetObject(s, id).Some?
          then [SceneRemove(ObjectNode(GetObject(s, id).value.handle))] + ReleaseEvents(GetObject(s, id).value)
          else [])
  {
    var first := RemoveObject(s, id);
    assert GetObject(first.state, id) == None;
    assert first.trace + [] == first.trace;
  }

  /** Re-adding an id overwrites the registry entry without removing the
      earlier object from the scene: that object stays in the scene, and a
      later `removeObject` of the id removes and releases only the new one. */
  lemma {:induction false} ReAddKeepsPreviousInScene(s: Service, id: string, o: Object3D, update: Option<Handle>)
    requires Inv(s)
    requires GetObject(s, id).Some?
    requires ObjectNode(GetObject(s, id).value.handle) in s.scene
    requires GetObject(s, id).value.handle != o.handle
    ensures
      var prev := GetObject(s, id).value;
      var added := AddObject(s, id, o, update);
      var removed := RemoveObject(added.state, id);
      && ObjectNode(prev.handle) in added.state.scene
      && ObjectNode(prev.handle) in removed.state.scene
      && removed.trace == [SceneRemove(ObjectNode(o.handle))] + ReleaseEvents(o)
      && GetObject(removed.state, id) == None
  {
  }

  /** Adding an id that is not registered and then removing it restores
      the registry exactly, iteration order included. */
  lemma {:induction false} AddThenRemoveRestoresRegistry(s: Service, id: string, o: Object3D, update: Option<Handle>)
    requires Inv(s)
    requires GetObject(s, id) == None
    ensures
      var added := AddObject(s, id, o, update);
      var removed := RemoveObject(added.state, id);
      && removed.state.objects == s.objects
      && removed.trace == [SceneRemove(ObjectNode(o.handle))] + ReleaseEvents(o)
      && (ObjectNode(o.handle) !in s.scene ==> removed.state.scene == s.scene)
  {
    var added := AddObject(s, id, o, update);
    AddStoresBySet(s, id, o, update);
    assert id in added.state.objects.entries by {
      assert GetObject(added.state, id).Some?;
    }
    RemoveDropsByDelete(added.state, id);
    JsMap.SetThenDeleteFresh(s.objects, id, SceneObject(id, o, update));
  }

  lemma AddStoresBySet(s: Service, id: string, o: Object3D, update: Option<Handle>)
    requires Inv(s)
    ensures AddObject(s, id, o, update).state.objects == JsMap.Set(s.objects, id, SceneObject(id, o, update))
  {
  }

  lemma RemoveDropsByDelete(s: Service, id: string)
    requires Inv(s)
    requires id in s.objects.entries
    ensures RemoveObject(s, id).state.objects == JsMap.Delete(s.objects, id)
  {
  }

  /** Removal is per id, not per object: one object registered under two
      ids is taken out of the scene and released once by each removal. */
  lemma {:induction false} SharedObjectReleasedPerId(s: Service, id1: string, id2: string, o: Object3D)
    requires Inv(s)
    requires id1 != id2
    ensures
      var a1 := AddObject(s, id1, o, None);
      var a2 := AddObject(a1.state, id2, o, None);
      var r1 := RemoveObject(a2.state, id1);
      var r2 := RemoveObject(r1.state, id2);
      && r1.trace == [SceneRemove(ObjectNode(o.handle))] + ReleaseEvents(o)
      && r2.trace == [SceneRemove(ObjectNode(o.handle))] + ReleaseEvents(o)
  {
    var a1 := AddObject(s, id1, o, None);
    var a2 := AddObject(a1.state, id2, o, None);
    assert GetObject(a2.state, id1) == Some(o);
    var r1 := RemoveObject(a2.state, id1);
    assert GetObject(r1.state, id2) == Some(o);
  }
}

=== FILE: service.dfy ===
/**
 `ThreeService` as a whole: every operation of the model as one step over
 the service record, runs of steps from the constructor, and the
 end-to-end behaviour of a few call sequences.
 */
module Runtime {
  import opened Base
  import JsMap
  import opened State
  import opened Registry
  import opened Controls
  import opened Animation
  import opened Input
  import opened Audio
  import opened FrameLoop

  /** A call into the service, or a host event it listens to. */
  datatype Op =
    | InitRendererOp
    | AddObjectOp(id: string, obj: Object3D, update: Option<Handle>)
    | RemoveObjectOp(id: string)
    | SetupControlsOp(kind: ControlKind, lib: ControlLibrary)
    | CreateMixerOp(root: Handle)
    | PlayGltfOp(path: string, gltf: LoadOutcome<Gltf>, index: int)
    | KeyOp(key: KeyEvent)
    | PlayAudioOp(id: string, path: string, opts: AudioOptions, buffer: LoadOutcome<Handle>)
    | PlayPositionalAudioOp(id: string, path: string, position: Vec3, opts: AudioOptions, buffer: LoadOutcome<Handle>)
    | TickOp(delta: real)

  /** The handle an event gives to the library object it builds, if any. */
  function Built(e: Event): Option<Handle> {
    match e
    case ControlConstruct(_, h) => Some(h)
    case MixerCreate(h, _) => Some(h)
    case AudioCreate(h, _) => Some(h)
    case _ => None
  }

  /** Every object built in `t` gets a handle in `[lo, hi)`, and no two
      objects get the same handle. */
  ghost predicate FreshBuilds(t: seq<Event>, lo: nat, hi: nat) {
    && (forall i | 0 <= i < |t| && Built(t[i]).Some? :: lo <= Built(t[i]).value < hi)
    && (forall i, j | 0 <= i < j < |t| && Built(t[i]).Some? && Built(t[j]).Some? ::
          Built(t[i]).value != Built(t[j]).value)
  }

  /** Calls that build no library object. */
  ghost predicate Unbuilt(t: seq<Event>) {
    forall i | 0 <= i < |t| :: Built(t[i]).None?
  }

  lemma NoBuilds(t: seq<Event>, lo: nat, hi: nat)
    requires Unbuilt(t)
    ensures FreshBuilds(t, lo, hi)
  {
  }

  lemma OneBuild(t: seq<Event>, k: nat, lo: nat, hi: nat)
    requires k < |t|
    requires forall i | 0 <= i < |t| && i != k :: Built(t[i]).None?
    requires Built(t[k]).Some? ==> lo <= Built(t[k]).value < hi
    ensures FreshBuilds(t, lo, hi)
  {
  }

  /** One build at the head of calls that build nothing. */
  lemma HeadBuild(x: Event, u: seq<Event>, lo: nat, hi: nat)
    requires Unbuilt(u)
    requires Built(x).Some? ==> lo <= Built(x).value < hi
    ensures FreshBuilds([x] + u, lo, hi)
  {
    forall i | 1 <= i < |[x] + u| ensures Built(([x] + u)[i]).None? {
      assert ([x] + u)[i] == u[i - 1];
    }
    OneBuild([x] + u, 0, lo, hi);
  }

  /** Builds over consecutive handle ranges stay fresh when concatenated. */
  lemma FreshAppend(a: seq<Event>, b: seq<Event>, lo: nat, mid: nat, hi: nat)
    requires lo <= mid <= hi
    requires FreshBuilds(a, lo, mid) && FreshBuilds(b, mid, hi)
    ensures FreshBuilds(a + b, lo, hi)
  {
    var t := a + b;
    forall i | 0 <= i < |t| && Built(t[i]).Some? ensures lo <= Built(t[i]).value < hi {
      if i >= |a| {
        assert t[i] == b[i - |a|];
      }
    }
    forall i, j | 0 <= i < j < |t| && Built(t[i]).Some? && Built(t[j]).Some?
      ensures Built(t[i]).value != Built(t[j]).value
    {
      if j < |a| {
      } else if i >= |a| {
        assert t[i] == b[i - |a|] && t[j] == b[j - |a|];
      } else {
        assert t[j] == b[j - |a|];
      }
    }
  }

  /** Removal releases resources and builds nothing. */
  lemma ReleaseBuildsNothing(o: Object3D)
    ensures forall i | 0 <= i < |ReleaseEvents(o)| :: Built(ReleaseEvents(o)[i]).None?
  {
    if o.shape.Mesh? {
      var gs: seq<Event> := if o.shape.geometry.Some? then [GeometryDispose(o.shape.geometry.value)] else [];
      var ds := ReleaseEvents(o)[|gs|..];
      assert ReleaseEvents(o) == gs + ds;
      forall i | 0 <= i < |ReleaseEvents(o)| ensures Built(ReleaseEvents(o)[i]).None? {
        if i >= |gs| {
          assert ReleaseEvents(o)[i] == ds[i - |gs|];
          assert ds[i - |gs|].MaterialDispose?;
        }
      }
    }
  }

  /** A tick only updates and renders; it builds nothing. */
  lemma TickBuildsNothing(s: Service, delta: real)
    requires Inv(s)
    ensures FreshBuilds(Animate(s, delta).trace, s.nextHandle, s.nextHandle)
  {
    TickPhasesInOrder(s, delta);
    NoBuilds(Animate(s, delta).trace, s.nextHandle, s.nextHandle);
  }

  lemma AddBuildsNothing(s: Service, id: string, obj: Object3D, update: Option<Handle>)
    requires Inv(s)
    ensures FreshBuilds(AddObject(s, id, obj, update).trace, s.nextHandle, s.nextHandle)
  {
    NoBuilds(AddObject(s, id, obj, update).trace, s.nextHandle, s.nextHandle);
  }

  lemma RemoveBuildsNothing(s: Service, id: string)
    requires Inv(s)
    ensures FreshBuilds(RemoveObject(s, id).trace, s.nextHandle, s.nextHandle)
  {
    var r := RemoveObject(s, id);
    if GetObject(s, id).Some? {
      var o := GetObject(s, id).value;
      ReleaseBuildsNothing(o);
      assert Unbuilt(ReleaseEvents(o));
      HeadBuild(SceneRemove(ObjectNode(o.handle)), ReleaseEvents(o), s.nextHandle, s.nextHandle);
    } else {
      NoBuilds(r.trace, s.nextHandle, s.nextHandle);
    }
  }

  lemma SetupBuildsFresh(s: Service, kind: ControlKind, lib: ControlLibrary)
    requires Inv(s)
    ensures var r := SetupControls(s, kind, lib); FreshBuilds(r.trace, s.nextHandle, r.state.nextHandle)
  {
    var r := SetupControls(s, kind, lib);
    var released := ReleaseControl(s.currentControl);
    assert forall i | 0 <= i < |released| :: released[i].ControlDispose?;
    if r.ok {
      assert r.trace == released + [ControlConstruct(kind, s.nextHandle)];
      OneBuild(r.trace, |r.trace| - 1, s.nextHandle, r.state.nextHandle);
    } else {
      NoBuilds(r.trace, s.nextHandle, r.state.nextHandle);
    }
  }

  lemma MixerBuildsFresh(s: Service, root: Handle)
    requires Inv(s)
    ensures var r := CreateAnimationMixer(s, root); FreshBuilds(r.trace, s.nextHandle, r.state.nextHandle)
  {
    var r := CreateAnimationMixer(s, root);
    OneBuild(r.trace, 0, s.nextHandle, r.state.nextHandle);
  }

  lemma GltfBuildsFresh(s: Service, path: string, gltf: LoadOutcome<Gltf>, index: int)
    requires Inv(s)
    ensures var r := PlayGltfAnimation(s, path, gltf, index); FreshBuilds(r.trace, s.nextHandle, r.state.nextHandle)
  {
    var r := PlayGltfAnimation(s, path, gltf, index);
    if gltf.Loaded? {
      OneBuild(r.trace, 2, s.nextHandle, r.state.nextHandle);
    } else {
      NoBuilds(r.trace, s.nextHandle, r.state.nextHandle);
    }
  }

  lemma AudioBuildsFresh(s: Service, id: string, path: string, opts: AudioOptions, buffer: LoadOutcome<Handle>)
    requires Inv(s)
    ensures var r := PlayAudio(s, id, path, opts, buffer); FreshBuilds(r.trace, s.nextHandle, r.state.nextHandle)
  {
    var r := PlayAudio(s, id, path, opts, buffer);
    if id in s.audioSources {
      NoBuilds(r.trace, s.nextHandle, r.state.nextHandle);
    } else {
      OneBuild(r.trace, 0, s.nextHandle, r.state.nextHandle);
    }
  }

  /** The calls of a positional source's first successful request build
      only the source. */
  lemma PositionalCallsBuildOnce(a: Handle, path: string, position: Vec3, b: Handle, opts: AudioOptions)
    ensures
      var request: seq<Event> := [AudioCreate(a, true), AudioSetPosition(a, position), AudioLoad(path)];
      var configure := [AudioSetBuffer(a, b), AudioSetVolume(a, Volume(opts)), AudioSetLoop(a, Loop(opts)),
                        AudioSetRefDistance(a, RefDistance(opts)), AudioSetMaxDistance(a, MaxDistance(opts)),
                        SceneAdd(AudioNode(a))];
      FreshBuilds(request + configure + PlayIf(Autoplay(opts), a), a, a + 1)
  {
    var tail: seq<Event> := [AudioSetPosition(a, position), AudioLoad(path), AudioSetBuffer(a, b),
                             AudioSetVolume(a, Volume(opts)), AudioSetLoop(a, Loop(opts)),
                             AudioSetRefDistance(a, RefDistance(opts)), AudioSetMaxDistance(a, MaxDistance(opts)),
                             SceneAdd(AudioNode(a))] + PlayIf(Autoplay(opts), a);
    HeadBuild(AudioCreate(a, true), tail, a, a + 1);
  }

  lemma PositionalBuildsFresh(s: Service, id: string, path: string, position: Vec3,
                              opts: AudioOptions, buffer: LoadOutcome<Handle>)
    requires Inv(s)
    ensures var r := PlayPositionalAudio(s, id, path, position, opts, buffer);
      FreshBuilds(r.trace, s.nextHandle, r.state.nextHandle)
  {
    var r := PlayPositionalAudio(s, id, path, position, opts, buffer);
    if id in s.audioSources {
      NoBuilds(r.trace, s.nextHandle, r.state.nextHandle);
    } else if buffer.LoadFailed? {
      OneBuild(r.trace, 0, s.nextHandle, r.state.nextHandle);
    } else {
      PositionalCallsBuildOnce(s.nextHandle, path, position, buffer.resource, opts);
    }
  }

  /** A step that keeps the invariant and builds its library objects under
      fresh handles. */
  ghost predicate Sound(s: Service, r: Step) {
    && Inv(r.state)
    && r.state.nextHandle >= s.nextHandle
    && FreshBuilds(r.trace, s.nextHandle, r.state.nextHandle)
  }

  /** The operations that return more than a step, as plain steps. */
  function SetupStep(s: Service, kind: ControlKind, lib: ControlLibrary): (r: Step)
    requires Inv(s)
    ensures Sound(s, r)
  {
    SetupBuildsFresh(s, kind, lib);
    var r := SetupControls(s, kind, lib);
    Step(r.state, r.trace)
  }

  function GltfStep(s: Service, path: string, gltf: LoadOutcome<Gltf>, index: int): (r: Step)
    requires Inv(s)
    ensures Sound(s, r)
  {
    GltfBuildsFresh(s, path, gltf, index);
    var r := PlayGltfAnimation(s, path, gltf, index);
    Step(r.state, r.trace)
  }

  function PlayAudioStep(s: Service, id: string, path: string, opts: AudioOptions, buffer: LoadOutcome<Handle>): (r: Step)
    requires Inv(s)
    ensures Sound(s, r)
  {
    AudioBuildsFresh(s, id, path, opts, buffer);
    var r := PlayAudio(s, id, path, opts, buffer);
    Step(r.state, r.trace)
  }

  function PlayPositionalStep(s: Service, id: string, path: string, position: Vec3,
                              opts: AudioOptions, buffer: LoadOutcome<Handle>): (r: Step)
    requires Inv(s)
    ensures Sound(s, r)
  {
    PositionalBuildsFresh(s, id, path, position, opts, buffer);
    var r := PlayPositionalAudio(s, id, path, position, opts, buffer);
    Step(r.state, r.trace)
  }

  function Apply(s: Service, op: Op): (r: Step)
    requires Inv(s)
    ensures Inv(r.state)
    // a frame tick changes nothing in the service
    ensures op.TickOp? ==> r.state == s
    ensures r.state.nextHandle >= s.nextHandle
    // what the step builds gets handles no earlier object has
    ensures FreshBuilds(r.trace, s.nextHandle, r.state.nextHandle)
  {
    match op
    case InitRendererOp => Step(InitRenderer(s), [])
    case AddObjectOp(id, obj, update) =>
      AddBuildsNothing(s, id, obj, update);
      AddObject(s, id, obj, update)
    case RemoveObjectOp(id) =>
      RemoveBuildsNothing(s, id);
      RemoveObject(s, id)
    case SetupControlsOp(kind, lib) => SetupStep(s, kind, lib)
    case CreateMixerOp(root) =>
      MixerBuildsFresh(s, root);
      var r := CreateAnimationMixer(s, root);
      Step(r.state, r.trace)
    case PlayGltfOp(path, gltf, index) => GltfStep(s, path, gltf, index)
    case KeyOp(e) => Step(OnKey(s, e), [])
    case PlayAudioOp(id, path, opts, buffer) => PlayAudioStep(s, id, path, opts, buffer)
    case PlayPositionalAudioOp(id, path, position, opts, buffer) =>
      PlayPositionalStep(s, id, path, position, opts, buffer)
    case TickOp(delta) =>
      TickBuildsNothing(s, delta);
      Step(s, Animate(s, delta).trace)
  }

  /** The operations in order, with their traces concatenated. */
  function Run(s: Service, ops: seq<Op>): (r: Step)
    requires Inv(s)
    ensures Inv(r.state)
    ensures r.state.nextHandle >= s.nextHandle
    // no two library objects the service builds share a handle, and none
    // shares one with an object built before the run
    ensures FreshBuilds(r.trace, s.nextHandle, r.state.nextHandle)
    decreases |ops|
  {
    if |ops| == 0 then Step(s, [])
    else
      var first := Apply(s, ops[0]);
      var rest := Run(first.state, ops[1..]);
      FreshAppend(first.trace, rest.trace, s.nextHandle, first.state.nextHandle, rest.state.nextHandle);
      Step(rest.state, first.trace + rest.trace)
  }

  /** What no operation takes away: mixers are only ever appended, and a
      composer once built stays. */
  ghost predicate Keeps(s: Service, t: Service) {
    && s.mixers <= t.mixers
    && (s.composer.Some? ==> t.composer.Some?)
  }

  /** `op` is an `addObject` or `removeObject` of `id`. */
  predicate Touches(op: Op, id: string) {
    (op.AddObjectOp? && op.id == id) || (op.RemoveObjectOp? && op.id == id)
  }

  lemma ApplyKeeps(s: Service, op: Op)
    requires Inv(s)
    ensures Keeps(s, Apply(s, op).state)
    ensures forall id | !Touches(op, id) :: JsMap.Get(Apply(s, op).state.objects, id) == JsMap.Get(s.objects, id)
  {
    match op
    case PlayGltfOp(path, gltf, index) =>
      if gltf.Loaded? {
        LoadKeepsEarlierMixers(s, path, gltf.resource, index);
      }
    case _ =>
  }

  lemma {:induction false} RunKeeps(s: Service, ops: seq<Op>)
    requires Inv(s)
    ensures Keeps(s, Run(s, ops).state)
    decreases |ops|
  {
    if |ops| > 0 {
      var first := Apply(s, ops[0]);
      ApplyKeeps(s, ops[0]);
      RunKeeps(first.state, ops[1..]);
    }
  }

  lemma {:induction false} RunKeepsEntry(s: Service, ops: seq<Op>, id: string)
    requires Inv(s)
    requires forall i | 0 <= i < |ops| :: !Touches(ops[i], id)
    ensures JsMap.Get(Run(s, ops).state.objects, id) == JsMap.Get(s.objects, id)
    decreases |ops|
  {
    if |ops| > 0 {
      var first := Apply(s, ops[0]);
      ApplyKeeps(s, ops[0]);
      RunKeepsEntry(first.state, ops[1..], id);
    }
  }

  /** In every state reachable from the constructor, the tick updates the
      installed control in the form of the control's own kind, even though
      it dispatches on the recorded control type. */
  lemma ReachableTickMatchesInstalledControl(ops: seq<Op>, delta: real)
    ensures
      var s := Run(Init(), ops).state;
      var t := Animate(s, delta).trace;
      forall h: Handle, arg: UpdateArg :: ControlUpdate(h, arg) in t <==>
        && s.currentControl.Some?
        && h == s.currentControl.value.handle
        && UpdateForm(s.currentControl.value.kind, delta) == Some(arg)
  {
    var s := Run(Init(), ops).state;
    TickUpdatesControlByKind(s, delta);
  }

  /** A green cube mesh with one geometry and one material. */
  function Cube(handle: Handle, geometry: Handle, material: Handle): Object3D {
    Object3D(handle, Mesh(Some(geometry), OneMaterial(material)))
  }

  /** Registering a cube and removing it again leaves the registry empty,
      takes the cube out of the scene and releases its geometry and its
      material. */
  lemma CubeAddRemove(handle: Handle, geometry: Handle, material: Handle)
    ensures
      var s := InitRenderer(Init());
      var added := AddObject(s, "cube", Cube(handle, geometry, material), None);
      var removed := RemoveObject(added.state, "cube");
      && GetObject(added.state, "cube") == Some(Cube(handle, geometry, material))
      && |removed.state.objects.keys| == 0
      && GetObject(removed.state, "cube") == None
      && ObjectNode(handle) !in removed.state.scene
      && removed.trace == [SceneRemove(ObjectNode(handle)), GeometryDispose(geometry), MaterialDispose(material)]
  {
    var s := InitRenderer(Init());
    var cube := Cube(handle, geometry, material);
    assert "cube" !in s.objects.entries by {
      assert s.objects == Init().objects;
    }
    AddThenRemoveRestoresRegistry(s, "cube", cube, None);
    assert ReleaseEvents(cube) == [GeometryDispose(geometry), MaterialDispose(material)];
  }

  /** Requesting orbit and then fly controls: the fly control is active
      and the orbit control was released before the fly control was
      built. */
  lemma OrbitThenFly(lib: ControlLibrary)
    requires Orbit in lib.disposable
    ensures
      var s := InitRenderer(Init());
      var orbit := SetupControls(s, Orbit, lib);
      var fly := SetupControls(orbit.state, Fly, lib);
      && fly.state.controlType == Fly
      && fly.state.currentControl.value.kind == Fly
      && fly.trace == [ControlDispose(orbit.state.currentControl.value.handle),
                       ControlConstruct(Fly, fly.state.currentControl.value.handle)]
      && fly.state.currentControl.value.handle != orbit.state.currentControl.value.handle
  {
  }

  /** Before the renderer exists, `setupControls` records the control type
      but installs nothing, so a tick makes no control update; the tick
      still schedules the next frame before it fails to render. */
  lemma ControlsBeforeRenderer(kind: ControlKind, lib: ControlLibrary, delta: real)
    ensures
      var r := SetupControls(Init(), kind, lib);
      var tick := Animate(r.state, delta);
      && !r.ok
      && r.state.controlType == kind
      && r.state.currentControl == None
      && !tick.completed
      && tick.trace == [RequestFrame, ClockDelta]
  {
    var r := SetupControls(Init(), kind, lib);
    TickPieces(r.state, delta);
  }
  /** A model loaded by `playGLTFAnimation` is animated from then on:
      whatever operations follow, a later tick advances its new mixer and
      every earlier one with the tick's delta, whether or not a clip could
      be played. */
  lemma {:induction false} LoadedModelIsAnimated(s: Service, path: string, g: Gltf, index: int, ops: seq<Op>, delta: real)
    requires Inv(s)
    ensures
      var r := PlayGltfAnimation(s, path, Loaded(g), index);
      var t := Animate(Run(r.state, ops).state, delta).trace;
      && MixerUpdate(r.state.mixers[|s.mixers|].handle, delta) in t
      && (forall i | 0 <= i < |s.mixers| :: MixerUpdate(s.mixers[i].handle, delta) in t)
  {
    var r := PlayGltfAnimation(s, path, Loaded(g), index);
    var later := Run(r.state, ops).state;
    LoadKeepsEarlierMixers(s, path, g, index);
    RunKeeps(r.state, ops);
    TickAdvancesEveryMixer(later, delta);
    PrefixMixersAdvanced(r.state.mixers, later.mixers, Animate(later, delta).trace, delta);
  }

  /** When every mixer of `later` is advanced, so is every mixer of a
      prefix of it. */
  lemma PrefixMixersAdvanced(ms: seq<Mixer>, later: seq<Mixer>, t: seq<Event>, delta: real)
    requires ms <= later
    requires forall i | 0 <= i < |later| :: MixerUpdate(later[i].handle, delta) in t
    ensures forall i | 0 <= i < |ms| :: MixerUpdate(ms[i].handle, delta) in t
  {
    forall i | 0 <= i < |ms| ensures MixerUpdate(ms[i].handle, delta) in t {
      assert ms[i] == later[i];
    }
  }

  /** A load appends one mixer and keeps the earlier ones in place. */
  lemma LoadKeepsEarlierMixers(s: Service, path: string, g: Gltf, index: int)
    requires Inv(s)
    ensures var ms := PlayGltfAnimation(s, path, Loaded(g), index).state.mixers;
      && |ms| == |s.mixers| + 1
      && forall i | 0 <= i < |s.mixers| :: ms[i] == s.mixers[i]
  {
    var ms := PlayGltfAnimation(s, path, Loaded(g), index).state.mixers;
    assert forall i | 0 <= i < |s.mixers| :: ms[i] == ms[..|s.mixers|][i];
  }

  /** Once `initRenderer` has run, every later tick, whatever operations
      come between, completes and renders through the composer, never
      directly through the renderer. */
  lemma {:induction false} RendererTicksThroughComposer(s: Service, ops: seq<Op>, delta: real)
    requires Inv(s)
    ensures
      var t := Animate(Run(InitRenderer(s), ops).state, delta);
      && t.completed
      && ComposerRender in t.trace
      && RendererRender !in t.trace
  {
    RunKeeps(InitRenderer(s), ops);
  }

  /** The callback `addObject` registers is what the tick calls for that
      id until the id is removed or registered again: with a callback, every
      such tick calls it with its delta; without one, the tick calls nothing
      for the id. */
  lemma {:induction false} AddedCallbackRunsEveryTick(s: Service, id: string, o: Object3D, update: Option<Handle>,
                                                      ops: seq<Op>, delta: real)
    requires Inv(s)
    requires forall i | 0 <= i < |ops| :: !Touches(ops[i], id)
    ensures
      var t := Animate(Run(AddObject(s, id, o, update).state, ops).state, delta).trace;
      forall cb: Handle, d: real :: ObjectUpdate(id, cb, d) in t <==> update == Some(cb) && d == delta
  {
    var added := AddObject(s, id, o, update);
    var later := Run(added.state, ops).state;
    RunKeepsEntry(added.state, ops, id);
    TickCallsRegisteredCallbacks(later, delta);
    assert id in later.objects.entries && later.objects.entries[id] == SceneObject(id, o, update);
  }
}

=== FILE: state.dfy ===
/**
 The state of `ThreeService`, as an immutable record.

 The service is a single object whose fields the operations mutate; here each
 operation is a function from one `Service` value to the next, together with
 the ordered trace of calls it made into the library (`Step`).
 */
module State {
  import opened Base
  import JsMap

  /** What a mesh's `material` field holds. */
  datatype MeshMaterial = NoMaterial | OneMaterial(material: Handle) | MaterialArray(materials: seq<Handle>)

  /** Whether an `Object3D` is a `THREE.Mesh`, and if so what it owns. */
  datatype Shape = Mesh(geometry: Option<Handle>, material: MeshMaterial) | NotMesh

  datatype Object3D = Object3D(handle: Handle, shape: Shape)

  /** A registry entry: the object and its optional per-frame callback. */
  datatype SceneObject = SceneObject(id: string, obj: Object3D, update: Option<Handle>)

  /** The tuning `setupControls` writes onto a freshly built control. */
  datatype Tuning =
    | OrbitTuning(enableDamping: bool, dampingFactor: real)
    | FirstPersonTuning(lookSpeed: real, movementSpeed: real)
    | FlyTuning(movementSpeed: real, rollSpeed: real)
    | LibraryDefaults

  /** A live camera control; `hasDispose` says whether its class exposes a
      `dispose` method. */
  datatype Control = Control(kind: ControlKind, handle: Handle, hasDispose: bool, tuning: Tuning)

  datatype Mixer = Mixer(handle: Handle, root: Handle)

  datatype AudioSource = AudioSource(id: string, audio: Handle, positional: bool)

  /** The passes of the effect composer. */
  datatype Pass = RenderPass | FxaaPass | GammaCorrectionPass

  datatype Service = Service(
    scene: set<SceneNode>,
    objects: JsMap.OrderedMap<SceneObject>,
    controlType: ControlKind,
    currentControl: Option<Control>,
    mixers: seq<Mixer>,
    keyStates: map<string, bool>,
    audioSources: map<string, AudioSource>,
    hasRenderer: bool,
    composer: Option<seq<Pass>>,
    hasStats: bool,
    // next handle for a library object the service constructs itself
    nextHandle: Handle)

  /** The result of an operation: the new state and the calls it made. */
  datatype Step = Step(state: Service, trace: seq<Event>)

  /** What every reachable state satisfies. */
  ghost predicate Inv(s: Service) {
    && JsMap.Valid(s.objects)
    && (forall id | id in s.objects.entries :: s.objects.entries[id].id == id)
    && (s.currentControl.Some? ==>
          s.currentControl.value.kind == s.controlType && s.currentControl.value.handle < s.nextHandle)
    && (forall i | 0 <= i < |s.mixers| :: s.mixers[i].handle < s.nextHandle)
    && (forall id | id in s.audioSources ::
          s.audioSources[id].id == id && s.audioSources[id].audio < s.nextHandle)
  }

  /** The service as its constructor leaves it: no renderer yet, the
      `'orbit'` control type but no control, and every registry empty. */
  function Init(): (s: Service)
    ensures Inv(s)
    ensures s.controlType == Orbit && s.currentControl == None
    ensures |s.objects.keys| == 0 && |s.mixers| == 0
    ensures |s.keyStates| == 0 && |s.audioSources| == 0
    ensures !s.hasRenderer && s.composer == None
  {
    Service({}, JsMap.Empty(), Orbit, None, [], map[], map[], false, None, false, 0)
  }

  /** The composer `setupPostProcessing` builds. */
  const ComposerPasses: seq<Pass> := [RenderPass, FxaaPass, GammaCorrectionPass]

  /** `setupPostProcessing`: a new composer over the renderer. Without a
      renderer the composer's constructor fails and nothing changes. */
  function SetupPostProcessing(s: Service): (r: Option<Service>)
    ensures r.Some? <==> s.hasRenderer
    ensures r.Some? ==> r.value.composer == Some([RenderPass, FxaaPass, GammaCorrectionPass])
    ensures r.Some? ==> r.value.(composer := s.composer) == s
  {
    if s.hasRenderer then Some(s.(composer := Some(ComposerPasses))) else None
  }

  /** `initRenderer`: creates the renderer, then the composer. */
  function InitRenderer(s: Service): (r: Service)
    requires Inv(s)
    ensures Inv(r)
    ensures r.hasRenderer
    // the render pass comes first, then anti-aliasing, then gamma correction
    ensures r.composer == Some([RenderPass, FxaaPass, GammaCorrectionPass])
    ensures r.(hasRenderer := s.hasRenderer, composer := s.composer) == s
  {
    SetupPostProcessing(s.(hasRenderer := true)).value
  }
}
